=== FILE: README.md ===
# Endfield protocol core, modelled in Dafny

Endfield-protocol-core is a small asset and operator management system. A FastAPI
backend keeps formal operators (`profiles`), pending applicants (`tempop`), assets, uploaded
files, audit logs and blueprints in a relational database. A Nuxt frontend adds a music
player with a lyric (LRC) parser and a login guard. This project models the core of both
halves as pure functions over immutable values, and proves what each operation promises.

- **Lyric parsing** (`LrcText`, `LrcScan`, `LrcTags`, `LrcStrip`, `LrcParser`, `Sorting`). `parseLrc`
  splits the text into lines. It finds every `[m:ss.xxx]` timestamp with the global pattern
  `\[(\d{1,3}):(\d{1,2})(?:\.(\d{1,3}))?\]`, turns each one into an entry carrying the
  line's text with all timestamps removed and trimmed, sorts the entries stably by time,
  and merges an entry that starts less than 200 ms after the previous output line into that
  line as a second language. The regular expression is replaced by a scanner (`MatchAt`,
  `Scan`, `Strip`). The scanner is proved to find exactly the positions where the pattern
  matches and to read back a rendered timestamp wherever it stands in a line, so that a
  line starting with several timestamps gives one entry per timestamp. `Strip` is proved to
  keep exactly the text between the matches.
- **Database** (`Models`, `Common`). The six tables are sequences of records in storage
  order. Their primary keys, the unique asset code and the foreign keys make up a
  `WellFormed` invariant. Every writing endpoint is proved to keep it.
- **Endpoints** (`Auth`, `Admin`, `Users`, `Files`, `Activities`, `Stats`). These are
  `get_current_user`, the applicant list and the approval transaction, `/users/me` read and
  partial update, file recording and listing, the five-entry activity feed and the system
  statistics. The writing endpoints (`ApproveOperator`, `UpdateUserMe`,
  `CreateFileRecord`) take the database and return the new database together with an
  `Ok` value or an `HttpError` with the source's status code and detail. The reading
  endpoints return only a value: `ListApplications`, `ReadFiles` and `GetSystemStats`
  read the database, `GetRecentActivities` the file table, `ReadUsersMe` the caller's
  record and `GetCurrentUser` the profile table.
- **Frontend state** (`Player`, `RouteGuard`). These are the global player state of
  `usePlayer` and the login redirect of the global route middleware.

Some details of the code that the model follows:
- `get_current_user` looks the subject up in `profiles` only (backend/dependencies.py:39-44),
  so an applicant is refused with 403.
- The approval replaces every `APP` in the code with Python's `str.replace`
  (backend/routers/admin.py:28). The new profile copies only the id and the code from the
  applicant (backend/routers/admin.py:30-36).
- The file listing returns the stored rows as they are (backend/routers/files.py:44-52).
  The applicant list returns every pending applicant (backend/routers/admin.py:14-16).

## Model

| member | source | states |
|---|---|---|
| LrcParser.ParseLrc | frontend/utils/lrcParser.ts:8-66 | empty input gives no lines; consecutive output lines start at least 200 ms apart; there are at most as many lines as raw entries, and every line's time is the time of some timestamp in the text |
| LrcParser.SortAndMerge | frontend/utils/lrcParser.ts:40-63 | sorting and merging any entry list gives lines spaced by the merge window, no more lines than entries, and only entry times |
| LrcParser.ParseSingleLine | frontend/utils/lrcParser.ts:9-37 | a one-line lyric `[tag]text` (text without `[` or line feed, not blank) parses to exactly one line at the tag's time with the trimmed text |
| LrcParser.LineEntries | frontend/utils/lrcParser.ts:18-37 | a line yields entries iff it has a timestamp and its stripped, trimmed text is not empty; then one entry per timestamp, in order, each with that timestamp's time and the shared text |
| LrcParser.SingleTagLine | frontend/utils/lrcParser.ts:20-36 | a rendered timestamp followed by bracket-free text yields one entry with the tag's time and the trimmed text |
| LrcParser.TwoTagLine | frontend/utils/lrcParser.ts:20-36 | a line such as `[00:12.00][01:30.00]chorus` yields two entries, one per timestamp in order, both carrying the trimmed text |
| LrcTags.NoBracketNoTags | frontend/utils/lrcParser.ts:20-24 | a line without `[` has no timestamp and nothing is removed from it |
| LrcParser.RawOfOneLine | frontend/utils/lrcParser.ts:11-18 | a text without line feeds is a single line for the parser |
| LrcParser.TagEntries | frontend/utils/lrcParser.ts:27-37 | one entry per match, in match order, each with the match's time and the line's text |
| LrcParser.FractionScaling | frontend/utils/lrcParser.ts:30-33 | the right-padded fraction of n digits is its value times 10^(3-n), always below 1000 ms |
| LrcParser.FractionExamples | frontend/utils/lrcParser.ts:32-33 | `.5` is 500 ms, `.05` is 50 ms and `.005` is 5 ms |
| LrcParser.DecimalValuePadded | frontend/utils/lrcParser.ts:33 | appending m zeros to a digit string multiplies its value by 10^m |
| LrcParser.TagTimeDecomposes | frontend/utils/lrcParser.ts:28-34 | a timestamp's millisecond time splits back into `min * 60 + sec` whole seconds and the fraction in milliseconds |
| LrcParser.ScanTagsValid | frontend/utils/lrcParser.ts:16 | every match found has 1-3 minute digits, 1-2 second digits and 0-3 fraction digits |
| LrcParser.SortByTime | frontend/utils/lrcParser.ts:41 | the entries are a permutation of the input, ascending by time, with entries of equal time in their input order |
| LrcParser.MergeStep | frontend/utils/lrcParser.ts:47-62 | an entry less than 200 ms from the last line joins it: the line keeps its time and earlier lines stay; an equal text is dropped; otherwise the incoming text goes first exactly when the line's text has a CJK character (U+4E00 to U+9FA5) and the incoming text has none, the two joined by a line feed; an entry outside the window is appended as a new line |
| LrcParser.MergeTextLines | frontend/utils/lrcParser.ts:54-58 | the merged text's lines are the incoming lines then the accumulated lines when only the accumulated text has a CJK character, and the accumulated lines first otherwise; the result has a CJK character iff either part has |
| LrcParser.SplitConcat | frontend/utils/lrcParser.ts:55-57 | splitting at a line feed inserted between two texts splits each text on its own |
| LrcParser.MergeFromGapped | frontend/utils/lrcParser.ts:47-63 | merging time-sorted entries yields lines that start at least 200 ms apart |
| LrcParser.MergeFromLength | frontend/utils/lrcParser.ts:47-63 | merging never produces more lines than entries |
| LrcParser.MergeFromTimes | frontend/utils/lrcParser.ts:50-61 | every merged line's time is the time of some entry |
| LrcParser.MergeOfSpaced | frontend/utils/lrcParser.ts:50-61 | entries already 200 ms apart are left unmerged |
| LrcParser.GappedAscending | frontend/utils/lrcParser.ts:50 | in merged output any two lines, not only neighbours, are at least 200 ms apart |
| LrcParser.SortAndMergeOne | frontend/utils/lrcParser.ts:41-63 | a single entry survives sorting and merging unchanged |
| LrcParser.ParseOfOneEntry | frontend/utils/lrcParser.ts:8-66 | a lyric with exactly one raw entry parses to exactly that entry |
| LrcParser.MergeChineseThenEnglish | frontend/utils/lrcParser.ts:54-55 | a Chinese line followed within the window by English becomes one line with the English first |
| LrcParser.MergeEnglishThenChinese | frontend/utils/lrcParser.ts:56-57 | English followed by Chinese keeps the English first |
| LrcParser.MergeWindowEdge | frontend/utils/lrcParser.ts:50-51 | from a line at time 0, a repeated text 199 ms later is dropped; 200 ms later it starts a new line |
| LrcScan.MatchAt | frontend/utils/lrcParser.ts:16 | a match starts at a `[`, ends within the text, has a valid tag, and contains no other `[` |
| LrcScan.MatchAtRenders | frontend/utils/lrcParser.ts:16 | the text a match covers is exactly the rendering `[m:s]` or `[m:s.f]` of its tag |
| LrcScan.RenderMatchRoundTrip | frontend/utils/lrcParser.ts:16 | whatever follows, a rendered valid tag is matched in full at its start and gives back the same tag |
| LrcTags.RenderMatchAfter | frontend/utils/lrcParser.ts:16 | whatever precedes and follows it, a rendered valid tag is matched in full at its own position and gives back the same tag |
| LrcTags.MatchRendered | frontend/utils/lrcParser.ts:16 | wherever the rendering of a valid tag appears in a text, the pattern matches it there, covering exactly that rendering |
| LrcTags.TwoTagScan | frontend/utils/lrcParser.ts:20-24 | a line of two timestamps followed by text without `[` has exactly those two matches, in order, and removing them leaves the text |
| LrcScan.ScanSound | frontend/utils/lrcParser.ts:20 | every reported match is a match of the pattern at its start |
| LrcScan.ScanFindsEveryMatch | frontend/utils/lrcParser.ts:20 | the scan reports a match at position p iff the pattern matches at p |
| LrcScan.ScanOrdered | frontend/utils/lrcParser.ts:20 | the matches lie inside the text, left to right, without overlap |
| LrcScan.ScanAfterMatch | frontend/utils/lrcParser.ts:20 | a match found at the current position is reported, and the search resumes at its end |
| LrcScan.StripLength | frontend/utils/lrcParser.ts:24 | the length drops by the number of characters the matches cover |
| LrcStrip.StripGaps | frontend/utils/lrcParser.ts:20-24 | removing the timestamps leaves exactly the text between the matches `matchAll` reports, in order: the text before the first match, between each two, and after the last |
| LrcScan.StripWithoutMatches | frontend/utils/lrcParser.ts:24 | a line without timestamps is left as it is |
| LrcText.JoinSplit | frontend/utils/lrcParser.ts:11 | joining the split pieces with line feeds gives back the text |
| LrcText.SplitJoin | frontend/utils/lrcParser.ts:11 | splitting the join of separator-free pieces gives back the pieces |
| LrcText.Trim | frontend/utils/lrcParser.ts:24 | the trimmed text is the slice between the leading and trailing whitespace, and starts and ends with non-whitespace |
| LrcText.TrimIdempotent | frontend/utils/lrcParser.ts:24 | trimming twice is trimming once |
| LrcText.TrimEmptyIffBlank | frontend/utils/lrcParser.ts:24-25 | a line's text is skipped iff it is whitespace only |
| LrcText.HasChineseConcat | frontend/utils/lrcParser.ts:45 | a concatenation has a CJK character iff one of its parts has |
| Sorting.Sort | frontend/utils/lrcParser.ts:41 | the result is ascending by the key and a permutation of the input |
| Sorting.SortStable | frontend/utils/lrcParser.ts:41 | elements with the same key keep their input order |
| Sorting.SortOfSorted | frontend/utils/lrcParser.ts:41 | an already sorted list is left unchanged |
| Models.NewProfile | backend/models.py:7-23 | a new profile has role `operator`, every optional column empty, and is created now |
| Models.NewAsset | backend/models.py:31-39 | a new asset has status `active` and no location |
| Models.NewBlueprint | backend/models.py:87-100 | a new blueprint is `v1.0`, private, with an empty JSON object, and takes `created_at` and `updated_at` from two separate clock reads |
| Models.NewTempop | backend/models.py:106-121 | a new applicant is `pending`, applied now, with every optional column empty |
| Models.AddAsset | backend/models.py:34-36 | an asset insert succeeds iff neither its id nor its code is taken, and then appends the row |
| Models.AddAssetWellFormed | backend/models.py:36 | a successful insert keeps the database well formed and adds exactly the new code |
| Models.UploaderIsNotAForeignKey | backend/models.py:53 | giving any stored file any uploader, a profile id or not, keeps the database well formed |
| Auth.Subject | backend/dependencies.py:33-35 | the subject exists iff the `sub` claim is present and not empty |
| Auth.GetCurrentUser | backend/dependencies.py:16-52 | an undecodable token is 401 "Could not validate credentials"; a missing subject is 401 "Invalid authentication credentials"; otherwise the caller is found iff the subject is a profile id, else 403; a found caller is that profile |
| Auth.OnlySubjectMatters | backend/dependencies.py:32-33 | claims other than `sub` (expiry, issuer) never change the outcome |
| Auth.ApplicantIsForbidden | backend/dependencies.py:39-44 | a subject that is only an applicant is refused with 403 |
| Auth.KnownSubjectResolves | backend/dependencies.py:39-46 | with unique profile ids, a token for profile i resolves to exactly profile i |
| Admin.ListApplications | backend/routers/admin.py:14-16 | the list holds exactly the applicants whose status is `pending` |
| Admin.ApprovedLeavesList | backend/routers/admin.py:16 | after an approval the pending list is the old list without the approved applicant |
| Admin.OfficialCodeHasNoApp | backend/routers/admin.py:28 | an official code contains no `APP` at all |
| Admin.CodeWithoutA | backend/routers/admin.py:28 | a code without `A` is kept as it is |
| Admin.ReplaceAbsent | backend/routers/admin.py:28 | replacing a pattern that does not occur changes nothing |
| Admin.OfficialCodeOfApplicant | backend/routers/admin.py:27-28 | `APP-0007` becomes `OP-0007` |
| Admin.OfficialCodeReplacesEvery | backend/routers/admin.py:28 | `APP-APP` becomes `OP-OP`: every occurrence is replaced |
| Admin.OfficialCodeKeepsOfficial | backend/routers/admin.py:28 | an official code is left unchanged |
| Admin.PromotedProfile | backend/routers/admin.py:30-36 | the new profile has the applicant's id, the official code, role `operator`, the newcomer department, the default avatar and nothing else from the applicant |
| Admin.ApproveOperator | backend/routers/admin.py:19-47 | an unknown id is 404 with no change; a failing commit is 500 with the error and no change; otherwise the promoted profile is appended, the applicant row is removed, the message names the new code, and the other tables are untouched |
| Admin.ApproveWellFormed | backend/routers/admin.py:38-43 | an approval keeps the database well formed and keeps every other profile and applicant |
| Users.ProcessAvatarUrl | backend/routers/users.py:57-65 | an empty avatar gives none; an `http://` or `https://` link is returned as is; anything else is presigned |
| Users.MeAvatarUrl | backend/routers/users.py:146-151 | an empty avatar gives none; any value starting with `http` is returned as is; anything else is presigned |
| Users.AvatarRulesDiffer | backend/routers/users.py:146-151 | the two avatar rules agree except on values that start with `http` but not with `http://` or `https://` |
| Users.AvatarRulesDifferExample | backend/routers/users.py:148 | `httpdocs/a.png` is returned raw by `/users/me` but presigned by the helper |
| Users.ReadUsersMe | backend/routers/users.py:140-181 | the view carries the record's common fields; a profile adds type `profile`, its role and department, and status `active`; an applicant adds type `tempop`, its status and role `guest`, and no department |
| Users.ApplyUpdate | backend/routers/users.py:191-209 | each supplied field replaces the stored one and each absent one is kept; department changes on a profile only; no other field changes |
| Users.DepartmentIgnoredForApplicant | backend/routers/users.py:207-209 | for an applicant the requested department has no effect |
| Users.ApplyUpdateCompose | backend/routers/users.py:191-209 | two updates in a row equal one update in which the later values win |
| Users.ApplyUpdateIdempotent | backend/routers/users.py:191-209 | repeating an update changes nothing more |
| Users.ApplyNoChange | backend/routers/users.py:191-209 | an empty update leaves the record as it is |
| Users.ReadAfterUpdate | backend/routers/users.py:140-209 | reading after an update shows the new code and bio, a profile's new department, and the old status and role |
| Users.UpdateUserFields | backend/routers/users.py:112-137 | the helper applies code, department and avatar only, as the endpoint does with the other fields absent |
| Users.UpdateUserFieldsAgrees | backend/routers/users.py:112-137 | the helper and the endpoint agree on updates without gender, age, address or bio |
| Users.Store | backend/routers/users.py:211-214 | the stored record replaces the row with its id, or is added when the id is new; rows with other ids are kept, no other row appears, and the other tables are untouched |
| Users.UpdateUserMe | backend/routers/users.py:184-218 | a failing commit is 500 with the error and no change; otherwise the updated record is stored and returned with "Profile updated" |
| Users.UpdateUserMeWellFormed | backend/routers/users.py:184-218 | an update keeps the database well formed and the set of profile ids; repeating it with the updated record gives the same database and reply |
| Files.NewestFirst | backend/routers/files.py:44-49 | the listing is a permutation of its input, newest first |
| Files.StoredRecord | backend/routers/files.py:24 | the stored row is the submitted one with the caller as uploader and, when no id was sent, a fresh id |
| Files.CreateFileRecord | backend/routers/files.py:13-33 | the insert succeeds iff the commit succeeds, the id is free and the asset exists; it then appends the stored row; otherwise 500 "Database Error: ..." and no change |
| Files.CreateFileRecordWellFormed | backend/routers/files.py:27-31 | recording a file keeps the database well formed |
| Files.ReadFiles | backend/routers/files.py:35-52 | an administrator sees every file, anyone else exactly the files they uploaded; newest first |
| Files.OwnFilesWithinAll | backend/routers/files.py:44-49 | what an operator sees is part of what an administrator sees |
| Files.CreatedFileIsListed | backend/routers/files.py:24-49 | a file just recorded appears in its uploader's listing, whatever uploader the client claimed |
| Activities.FormatTime | backend/routers/activities.py:26 | the time is five characters with a colon in the middle |
| Activities.FormatTimeRoundTrip | backend/routers/activities.py:26 | reading `HH:MM` back gives the hour and minute of the timestamp |
| Activities.FormatTimeSame | backend/routers/activities.py:26 | two timestamps print the same iff they share hour and minute |
| Activities.ActivityOf | backend/routers/activities.py:24-38 | each activity has type `upload`, the file's `HH:MM`, and the message `Audio track "<name>" uploaded` for an `audio/` mime type or `File "<name>" uploaded` otherwise, also when the mime type is missing |
| Activities.MessageDetermines | backend/routers/activities.py:29-32 | the message determines whether the file is audio and its file name |
| Activities.RecentFiles | backend/routers/activities.py:17-21 | the feed takes the first five of the files ordered newest first |
| Activities.RecentFilesAreNewest | backend/routers/activities.py:17-21 | the feed is newest first, and any file left out is no newer than every file shown |
| Activities.RecentFilesStored | backend/routers/activities.py:17-21 | the feed shows only stored files, each at most as often as stored |
| Activities.GetRecentActivities | backend/routers/activities.py:12-40 | at most five activities, one per recent file in the same order |
| Stats.GetSystemStats | backend/routers/stats.py:11-32 | files counts rows with an id, tracks counts those with an `audio/` mime type, users counts profiles, status is `ACTIVE`; tracks never exceed files |
| Stats.StatsOfWellFormed | backend/routers/stats.py:16-22 | in a well-formed database every file is counted and the tracks are the audio files |
| Stats.TrackFilterSame | backend/routers/stats.py:19-22 | over rows with ids, counting tracks is counting audio files |
| Stats.StatsAfterCreate | backend/routers/stats.py:16-25 | recording a file adds one file, one track if it is audio, and no user |
| Stats.StatsAfterApprove | backend/routers/stats.py:25 | an approval adds exactly one user |
| Stats.FeedTracksCounted | backend/routers/stats.py:19-22 | the feed never shows more audio files than the track count |
| Player.Initial | frontend/composables/usePlayer.ts:4-9 | the player starts on the default track, paused, at volume 0.4 |
| Player.Play | frontend/composables/usePlayer.ts:11-18 | playing the current track toggles it; another track is selected and plays |
| Player.Toggle | frontend/composables/usePlayer.ts:20-22 | toggling flips playing and nothing else |
| Player.Reset | frontend/composables/usePlayer.ts:25-28 | a reset returns to the default track, paused |
| Player.InitBgm | frontend/composables/usePlayer.ts:31-35 | initialising plays the default track whatever played before |
| Player.VolumeNeverChanges | frontend/composables/usePlayer.ts:9 | no sequence of actions changes the volume |
| Player.ToggleTwice | frontend/composables/usePlayer.ts:20-22 | toggling twice restores the state |
| Player.PlaySameTwice | frontend/composables/usePlayer.ts:11-13 | playing the current track twice restores the state |
| Player.PlayNewThenSame | frontend/composables/usePlayer.ts:11-18 | playing a new track twice leaves it selected and paused |
| Player.ResetForgets | frontend/composables/usePlayer.ts:25-35 | reset and initialisation forget everything but the volume |
| Player.ResetOfInitial | frontend/composables/usePlayer.ts:25-28 | resetting the initial state changes nothing |
| RouteGuard.Guard | frontend/middleware/auth.global.ts:8-21 | a signed-in user is sent from `/login` to `/`; a signed-out user is sent to `/login` from any other page; otherwise access is allowed |
| RouteGuard.NoRedirectLoop | frontend/middleware/auth.global.ts:8-21 | the target of a redirect is always allowed, so no redirect loops |
| RouteGuard.AllowedIff | frontend/middleware/auth.global.ts:8-21 | a page is allowed iff it is `/login` exactly when the user is signed out |

## Left out

- LrcParser.ParseLrc: times are integer milliseconds, not floating-point seconds. The
  source compares `Math.abs(a - b) < 0.2` on doubles, so two entries exactly 200 ms apart
  can still merge through rounding (for example 1.2 - 1.0). The model never merges them.
- LrcParser.MergeStep: the window test is on integer milliseconds, so an entry exactly
  200 ms after the line always starts a new line. In the source, doubles can put such an
  entry inside the window (`1.2 - 1` is below `0.2`) and merge it.
- LrcParser.MergeOfSpaced: "already 200 ms apart" is in integer milliseconds; the source
  may merge some of those pairs through the rounding above.
- LrcParser.MergeWindowEdge: the edge example is taken at time 0, where doubles and
  integers agree; at other times the source may merge the 200 ms pair.
- LrcParser.ParseLrc: the contract states the shape of the output (spacing, size, times),
  not the full list of lines. The exact result for one-line lyrics is stated by
  `ParseSingleLine` and `ParseOfOneEntry`, and the merge rules by `MergeStep` and its lemmas.
- Lyric texts are sequences of Unicode code points (Dafny characters), while JavaScript
  strings are sequences of UTF-16 code units. This does not change the result: every
  character the parser tests (digits, `[`, `]`, `:`, `.`, JavaScript whitespace, U+4E00 to
  U+9FA5) lies in the Basic Multilingual Plane, and neither `split('\n')` nor `trim` can
  cut a surrogate pair. There is no Unicode normalisation.
- JWT decoding is left out. A token is its claims as a string map, or none when it cannot
  be decoded. A non-string `sub` claim is not modelled.
- Auth.GetCurrentUser: a subject that is not UUID syntax makes the database lookup
  raise, which `except JWTError` does not catch, so the program answers 500; the model
  answers 403 "Profile not found (Access Denied)". A profile's UUID spelled differently
  (upper case, without hyphens) is found by the program but refused by the model, which
  compares ids as strings.
- UUIDs are strings, and Python's `datetime.now` is a timestamp parameter in microseconds
  since a fixed midnight.
- Exception texts (`str(e)`) and whether a commit fails are parameters
  (`commitFails`, `error`). Key conflicts always fail the commit, with the same error.
- The database's autoincrement is modelled as the largest file id plus one.
- SQL gives no order between rows with equal `created_at`. The model keeps table order for
  them.
- `generate_presigned_url` is a function parameter. `routers/users.py` imports it from
  `services/storage.py`, but that module, as shown, defines only `generate_presigned_post`.
- Users.ReadUsersMe: takes a caller that may be an applicant, as the source's type
  annotation allows. `get_current_user` only ever returns profiles, so the applicant branch
  is unreachable in the running system.
- Asset routes, uploads (`routers/assets.py`, `routers/upload.py`,
  `services/storage.py`) and the application set-up (`database.py`, `config.py`,
  `main.py`, `nuxt.config.ts`) are not part of this model. They are pass-throughs to the
  database, the object store or the framework.
- File delete and batch delete, the mime-type prefix filter on the file list, presigned
  URL decoration of file lists and pagination of the pending applications do not appear
  in the backend source: `routers/files.py` has only `create_file_record` and
  `read_files`, and `routers/admin.py` lists applications unpaginated. None is modelled.
- The toast notifications of `useToast.ts` are not part of this model. They are
  presentation only.
- Models.Json: `JNumber` holds integers only, while the `data` column of a blueprint may
  hold floats. `JObject` is a list of pairs and so allows a key twice, which a Python
  `Dict[str, Any]` cannot hold. Blueprints have no endpoint, so only the column's shape
  is affected.
- Audit logs and blueprints have no endpoint in the modelled core. They appear only as
  tables with their defaults and foreign keys.

=== FILE: activities.dfy ===
/** `GET /activities/`: the five newest files as an activity feed, each with its upload
    time as `HH:MM` and a message that tells audio tracks from other files. */
module Activities {
  import opened Common
  import opened Models
  import opened Files

  /** One entry of the feed; `kind` is the `type` key. */
  datatype Activity = Activity(time: string, kind: string, message: string)

  /** The number of files in the feed (`.limit(5)`). */
  const FeedSize: nat := 5

  // ---------------------------------------------------------------- clock

  const MicrosPerMinute: nat := 60_000_000

  function Hour(t: Timestamp): nat {
    (t / (60 * MicrosPerMinute)) % 24
  }

  function Minute(t: Timestamp): nat {
    (t / MicrosPerMinute) % 60
  }

  function DigitChar(d: nat): char
    requires d < 10
  {
    ('0' as int + d) as char
  }

  /** A number below 100 as two decimal digits, zero-padded. */
  function TwoDigits(n: nat): (r: string)
    requires n < 100
    ensures |r| == 2 && '0' <= r[0] <= '9' && '0' <= r[1] <= '9'
  {
    [DigitChar(n / 10), DigitChar(n % 10)]
  }

  /** `strftime("%H:%M")`. */
  function FormatTime(t: Timestamp): (r: string)
    ensures |r| == 5 && r[2] == ':'
  {
    TwoDigits(Hour(t)) + ":" + TwoDigits(Minute(t))
  }

  function DigitsValue(s: string): int
    requires |s| == 2
  {
    ((s[0] as int) - ('0' as int)) * 10 + ((s[1] as int) - ('0' as int))
  }

  /** Reads the hour and minute back from an `HH:MM` text. */
  function ParseTime(s: string): (int, int)
    requires |s| == 5
  {
    (DigitsValue(s[..2]), DigitsValue(s[3..]))
  }

  /** The formatted time gives back the hour and minute it was made from, so two
      timestamps show the same `HH:MM` exactly when they agree on hour and minute. */
  lemma FormatTimeRoundTrip(t: Timestamp)
    ensures ParseTime(FormatTime(t)) == (Hour(t) as int, Minute(t) as int)
  {
    var r := FormatTime(t);
    assert r[..2] == TwoDigits(Hour(t));
    assert r[3..] == TwoDigits(Minute(t));
  }

  lemma FormatTimeSame(t1: Timestamp, t2: Timestamp)
    ensures FormatTime(t1) == FormatTime(t2) <==> Hour(t1) == Hour(t2) && Minute(t1) == Minute(t2)
  {
    FormatTimeRoundTrip(t1);
    FormatTimeRoundTrip(t2);
  }

  // ---------------------------------------------------------------- messages

  function Message(f: File): string {
    if IsAudio(f) then "Audio track \"" + f.filename + "\" uploaded"
    else "File \"" + f.filename + "\" uploaded"
  }

  /** The activity of one file: an upload at the file's `HH:MM`, announced as an audio
      track when its mime type starts with `audio/` and as a file otherwise, including
      when the mime type is missing. */
  function ActivityOf(f: File): (a: Activity)
    ensures a.kind == "upload" && a.time == FormatTime(f.createdAt)
    ensures IsAudio(f) ==> a.message == "Audio track \"" + f.filename + "\" uploaded"
    ensures !IsAudio(f) ==> a.message == "File \"" + f.filename + "\" uploaded"
    ensures f.mimeType.None? ==> a.message == "File \"" + f.filename + "\" uploaded"
  {
    Activity(FormatTime(f.createdAt), "upload", Message(f))
  }

  /** The first letter of a message tells an audio track (`A`) from another file (`F`). */
  lemma MessageHead(f: File)
    ensures |Message(f)| > 0 && Message(f)[0] == (if IsAudio(f) then 'A' else 'F')
  {
  }

  /** A message tells whether the file is an audio track, and which file name it has:
      two files with the same message agree on both. */
  lemma MessageDetermines(f: File, g: File)
    requires Message(f) == Message(g)
    ensures IsAudio(f) == IsAudio(g) && f.filename == g.filename
  {
    var m := Message(f);
    MessageHead(f);
    MessageHead(g);
    assert IsAudio(f) == IsAudio(g);
    if IsAudio(f) {
      assert f.filename == m[13..13 + |f.filename|];
      assert g.filename == m[13..13 + |g.filename|];
    } else {
      assert f.filename == m[6..6 + |f.filename|];
      assert g.filename == m[6..6 + |g.filename|];
    }
  }

  // ---------------------------------------------------------------- feed

  function Min(a: nat, b: nat): nat {
    if a < b then a else b
  }

  /** The files of the feed: the newest five, newest first. */
  function RecentFiles(files: seq<File>): (r: seq<File>)
    ensures |r| == Min(FeedSize, |files|)
    ensures r == NewestFirst(files)[..|r|]
  {
    var sorted := NewestFirst(files);
    sorted[..Min(FeedSize, |sorted|)]
  }

  /** `get_recent_activities`: one activity per recent file, in the same order. */
  function GetRecentActivities(files: seq<File>): (r: seq<Activity>)
    ensures |r| == Min(FeedSize, |files|) && |r| <= FeedSize
    ensures forall k :: 0 <= k < |r| ==> r[k] == ActivityOf(RecentFiles(files)[k])
    ensures forall k :: 0 <= k < |r| ==> r[k].kind == "upload"
  {
    var recent := RecentFiles(files);
    seq(|recent|, k requires 0 <= k < |recent| => ActivityOf(recent[k]))
  }

  /** The feed holds the newest files: every file left out is no newer than every file
      shown, and the shown ones are newest first. */
  lemma RecentFilesAreNewest(files: seq<File>)
    ensures forall i, j :: 0 <= i < j < |RecentFiles(files)| ==>
              RecentFiles(files)[i].createdAt >= RecentFiles(files)[j].createdAt
    ensures forall f :: f in files ==>
              f in RecentFiles(files) || forall g :: g in RecentFiles(files) ==> f.createdAt <= g.createdAt
  {
    var sorted := NewestFirst(files);
    var recent := RecentFiles(files);
    forall f | f in files
      ensures f in recent || forall g :: g in recent ==> f.createdAt <= g.createdAt
    {
      assert f in multiset(sorted);
      var i :| 0 <= i < |sorted| && sorted[i] == f;
      if i >= |recent| {
        forall g | g in recent
          ensures f.createdAt <= g.createdAt
        {
          var j :| 0 <= j < |recent| && recent[j] == g;
          assert sorted[j] == g;
        }
      } else {
        assert recent[i] == f;
      }
    }
  }

  /** Every selected file is a stored file. */
  lemma RecentFilesStored(files: seq<File>)
    ensures multiset(RecentFiles(files)) <= multiset(files)
  {
    var sorted := NewestFirst(files);
    var n := |RecentFiles(files)|;
    assert sorted == sorted[..n] + sorted[n..];
  }
}

=== FILE: admin.dfy ===
/** The administrator's endpoints: listing pending applications and approving one, which
    moves the applicant from the `tempop` table into `profiles` in one transaction. */
module Admin {
  import opened Common
  import opened Models

  const ApproveNotFound: HttpError := HttpError(404, "Application not found")
  const NewcomerDepartment: string := "新进人员"
  const DefaultAvatarUrl: string := "https://ui-avatars.com/api/?name=OP&background=random"

  // ---------------------------------------------------------------- listing

  predicate IsPending(t: Tempop) {
    t.status == "pending"
  }

  /** `GET /admin/applications`: the applicants whose status is `pending`, in table order. */
  function ListApplications(db: Db): (r: seq<Tempop>)
    ensures forall t :: t in r <==> t in db.tempops && t.status == "pending"
    ensures multiset(r) <= multiset(db.tempops)
  {
    Filter(db.tempops, IsPending)
  }

  /** Approving an applicant takes it off the list and leaves the other entries. */
  lemma ApprovedLeavesList(db: Db, id: Uuid, now: Timestamp, commitFails: bool, error: string)
    requires WellFormed(db)
    requires ApproveOperator(db, id, now, commitFails, error).1.Ok?
    ensures forall t :: t in ListApplications(ApproveOperator(db, id, now, commitFails, error).0) <==>
              t in ListApplications(db) && t.id != id
  {
  }

  // ---------------------------------------------------------------- codes

  /** An occurrence of `pat` in `s` at index `i`. */
  predicate OccursAt(s: string, pat: string, i: int) {
    0 <= i && i + |pat| <= |s| && s[i..i + |pat|] == pat
  }

  /** Python's `s.replace(pat, rep)`: every non-overlapping occurrence of `pat`, scanning
      left to right, is replaced by `rep`. */
  function ReplaceAll(s: string, pat: string, rep: string): (r: string)
    requires |pat| > 0
    decreases |s|
  {
    if |s| == 0 then ""
    else if OccursAt(s, pat, 0) then rep + ReplaceAll(s[|pat|..], pat, rep)
    else [s[0]] + ReplaceAll(s[1..], pat, rep)
  }

  /** The formal code of an applicant: `APP-xxxx` becomes `OP-xxxx`. */
  function OfficialCode(code: string): string {
    ReplaceAll(code, "APP", "OP")
  }

  /** A text without the pattern is left unchanged. */
  lemma {:induction false} ReplaceAbsent(s: string, pat: string, rep: string)
    requires |pat| > 0
    requires forall i :: 0 <= i < |s| ==> !OccursAt(s, pat, i)
    ensures ReplaceAll(s, pat, rep) == s
    decreases |s|
  {
    if |s| > 0 {
      assert !OccursAt(s, pat, 0);
      forall i | 0 <= i < |s| - 1
        ensures !OccursAt(s[1..], pat, i)
      {
        assert !OccursAt(s, pat, i + 1);
        if i + |pat| <= |s| - 1 {
          assert s[1..][i..i + |pat|] == s[i + 1..i + 1 + |pat|];
        }
      }
      ReplaceAbsent(s[1..], pat, rep);
      assert s == [s[0]] + s[1..];
    }
  }

  /** `APP` at index `i`, character by character. */
  predicate AppAt(s: string, i: int) {
    0 <= i && i + 3 <= |s| && s[i] == 'A' && s[i + 1] == 'P' && s[i + 2] == 'P'
  }

  lemma AppAtIsOccurrence(s: string, i: int)
    ensures OccursAt(s, "APP", i) <==> AppAt(s, i)
  {
    if AppAt(s, i) {
      assert s[i..i + 3] == [s[i], s[i + 1], s[i + 2]];
    }
    if OccursAt(s, "APP", i) {
      assert s[i..i + 3][0] == s[i] && s[i..i + 3][1] == s[i + 1] && s[i..i + 3][2] == s[i + 2];
    }
  }

  /** One step of the replacement, at the head of the text. */
  lemma OfficialCodeStep(s: string)
    requires |s| > 0
    ensures AppAt(s, 0) ==> OfficialCode(s) == "OP" + OfficialCode(s[3..])
    ensures !AppAt(s, 0) ==> OfficialCode(s) == [s[0]] + OfficialCode(s[1..])
  {
    AppAtIsOccurrence(s, 0);
  }

  /** No `APP` is left in an official code: none survives and none is formed. */
  lemma {:induction false} OfficialCodeHasNoAppAt(s: string)
    ensures forall i :: !AppAt(OfficialCode(s), i)
    decreases |s|
  {
    if |s| > 0 {
      var r := OfficialCode(s);
      OfficialCodeStep(s);
      if AppAt(s, 0) {
        var tail := OfficialCode(s[3..]);
        OfficialCodeHasNoAppAt(s[3..]);
        forall i
          ensures !AppAt(r, i)
        {
          if i >= 2 && AppAt(r, i) {
            assert AppAt(tail, i - 2);
          }
        }
      } else {
        var tail := OfficialCode(s[1..]);
        OfficialCodeHasNoAppAt(s[1..]);
        forall i
          ensures !AppAt(r, i)
        {
          if i >= 1 && AppAt(r, i) {
            assert AppAt(tail, i - 1);
          } else if i == 0 && AppAt(r, 0) {
            OfficialCodeStep(s[1..]);
            assert !AppAt(s[1..], 0) && s[1] == 'P';
            assert |s[2..]| > 0;
            OfficialCodeStep(s[2..]);
            assert false;
          }
        }
      }
    }
  }

  /** The official code contains no occurrence of `APP`. */
  lemma OfficialCodeHasNoApp(s: string)
    ensures forall i :: 0 <= i < |OfficialCode(s)| ==> !OccursAt(OfficialCode(s), "APP", i)
  {
    OfficialCodeHasNoAppAt(s);
    forall i | 0 <= i < |OfficialCode(s)|
      ensures !OccursAt(OfficialCode(s), "APP", i)
    {
      AppAtIsOccurrence(OfficialCode(s), i);
    }
  }

  /** A code with no `A` at all is kept as it is. */
  lemma CodeWithoutA(s: string)
    requires forall i :: 0 <= i < |s| ==> s[i] != 'A'
    ensures OfficialCode(s) == s
  {
    forall i | 0 <= i < |s|
      ensures !OccursAt(s, "APP", i)
    {
      AppAtIsOccurrence(s, i);
    }
    ReplaceAbsent(s, "APP", "OP");
  }

  /** The prefix of an applicant's code becomes `OP`. */
  lemma OfficialCodeOfApplicant()
    ensures OfficialCode("APP-0007") == "OP-0007"
  {
    OfficialCodeStep("APP-0007");
    assert "APP-0007"[3..] == "-0007";
    CodeWithoutA("-0007");
  }

  /** Every `APP` is replaced, not just the first one. */
  lemma OfficialCodeReplacesEvery()
    ensures OfficialCode("APP-APP") == "OP-OP"
  {
    OfficialCodeStep("APP-APP");
    assert "APP-APP"[3..] == "-APP";
    OfficialCodeStep("-APP");
    assert "-APP"[1..] == "APP";
    OfficialCodeStep("APP");
    assert "APP"[3..] == "";
  }

  /** A code that is already official is kept. */
  lemma OfficialCodeKeepsOfficial()
    ensures OfficialCode("OP-0007") == "OP-0007"
  {
    CodeWithoutA("OP-0007");
  }

  // ---------------------------------------------------------------- approval

  /** The profile an approval creates: only the id and the code come from the applicant. */
  function PromotedProfile(t: Tempop, now: Timestamp): (p: Profile)
    ensures p.id == t.id && p.code == Some(OfficialCode(t.code))
    ensures p.role == "operator" && p.department == Some(NewcomerDepartment)
    ensures p.avatarUrl == Some(DefaultAvatarUrl)
    ensures p.email.None? && p.gender.None? && p.age.None? && p.address.None? && p.bio.None?
  {
    NewProfile(t.id, now).(code := Some(OfficialCode(t.code)), department := Some(NewcomerDepartment),
                           avatarUrl := Some(DefaultAvatarUrl))
  }

  predicate OtherThan(id: Uuid, t: Tempop) {
    t.id != id
  }

  /** `POST /admin/approve/{id}`. The commit fails, and the transaction is rolled back,
      when the database reports an error (`commitFails`, with message `error`) or when a
      profile with the same id already exists. */
  function ApproveOperator(db: Db, id: Uuid, now: Timestamp, commitFails: bool, error: string)
    : (r: (Db, Response<string>))
    ensures id !in TempopIds(db) ==> r == (db, Err(ApproveNotFound))
    ensures r.1.Err? ==> r.0 == db
    ensures id in TempopIds(db) && (commitFails || id in ProfileIds(db)) ==>
              r == (db, Err(HttpError(500, error)))
    ensures r.1.Ok? <==> id in TempopIds(db) && !commitFails && id !in ProfileIds(db)
    ensures r.1.Ok? ==> id in ProfileIds(r.0) && id !in TempopIds(r.0)
    ensures r.1.Ok? ==> exists t :: (t in db.tempops && t.id == id &&
              r.0.profiles == db.profiles + [PromotedProfile(t, now)] &&
              r.1.value == "Operator " + OfficialCode(t.code) + " approved successfully.")
    ensures r.1.Ok? ==> r.0.tempops == Filter(db.tempops, t => OtherThan(id, t))
    ensures r.0.assets == db.assets && r.0.files == db.files
    ensures r.0.auditLogs == db.auditLogs && r.0.blueprints == db.blueprints
  {
    match Find(db.tempops, TempopId, id)
    case None =>
      assert id !in TempopIds(db);
      (db, Err(ApproveNotFound))
    case Some(applicant) =>
      assert id in TempopIds(db);
      if commitFails || id in ProfileIds(db) then (db, Err(HttpError(500, error)))
      else
        var p := PromotedProfile(applicant, now);
        var tempops := Filter(db.tempops, t => OtherThan(id, t));
        var db' := db.(profiles := db.profiles + [p], tempops := tempops);
        assert db'.profiles[|db.profiles|] == p;
        assert id !in TempopIds(db') by {
          forall i | 0 <= i < |tempops|
            ensures tempops[i].id != id
          {
            assert tempops[i] in tempops;
          }
        }
        (db', Ok("Operator " + OfficialCode(applicant.code) + " approved successfully."))
  }

  /** A successful approval keeps the database well formed, and every other profile and
      applicant row is unchanged. */
  lemma ApproveWellFormed(db: Db, id: Uuid, now: Timestamp, commitFails: bool, error: string)
    requires WellFormed(db)
    ensures WellFormed(ApproveOperator(db, id, now, commitFails, error).0)
    ensures forall p :: p in db.profiles ==> p in ApproveOperator(db, id, now, commitFails, error).0.profiles
    ensures forall t :: t in db.tempops && t.id != id ==>
              t in ApproveOperator(db, id, now, commitFails, error).0.tempops
  {
    var r := ApproveOperator(db, id, now, commitFails, error);
    if r.1.Ok? {
      var db' := r.0;
      var t :| t in db.tempops && t.id == id &&
               db'.profiles == db.profiles + [PromotedProfile(t, now)];
      var p := PromotedProfile(t, now);
      assert db'.profiles == Put(db.profiles, ProfileId, p);
      PutUnique(db.profiles, ProfileId, p);
      FilterUnique(db.tempops, TempopId, t => OtherThan(id, t));
      assert ProfileIds(db) <= ProfileIds(db') by {
        forall i | 0 <= i < |db.profiles|
          ensures db.profiles[i].id in ProfileIds(db')
        {
          assert db'.profiles[i] == db.profiles[i];
        }
      }
    }
  }
}

=== FILE: auth.dfy ===
/** `get_current_user`: resolves the caller of an endpoint from the bearer token. The
    token's claims are read without checking its signature or expiry; the `sub` claim is
    looked up in the profile table only. */
module Auth {
  import opened Common
  import opened Models

  /** The claims of a decoded token. */
  type Claims = map<string, string>

  const InvalidCredentials: HttpError := HttpError(401, "Invalid authentication credentials")
  const CouldNotValidate: HttpError := HttpError(401, "Could not validate credentials")
  const ProfileNotFound: HttpError := HttpError(403, "Profile not found (Access Denied)")

  /** The `sub` claim when it is present and not empty (`payload.get("sub")` is truthy). */
  function Subject(claims: Claims): (r: Option<string>)
    ensures r.Some? <==> "sub" in claims && claims["sub"] != ""
    ensures r.Some? ==> r.value == claims["sub"]
  {
    if "sub" in claims && claims["sub"] != "" then Some(claims["sub"]) else None
  }

  /** `token` is `None` when the token cannot be decoded at all. */
  function GetCurrentUser(token: Option<Claims>, profiles: seq<Profile>): (r: Response<Profile>)
    ensures token.None? ==> r == Err(CouldNotValidate)
    ensures token.Some? && Subject(token.value).None? ==> r == Err(InvalidCredentials)
    ensures token.Some? && Subject(token.value).Some? ==>
              (r.Ok? <==> Subject(token.value).value in Keys(profiles, ProfileId))
    ensures (token.Some? && Subject(token.value).Some?
             && Subject(token.value).value !in Keys(profiles, ProfileId)) ==> r == Err(ProfileNotFound)
    ensures r.Ok? ==> r.value in profiles && r.value.id == token.value["sub"]
  {
    match token
    case None => Err(CouldNotValidate)
    case Some(claims) =>
      match Subject(claims)
      case None => Err(InvalidCredentials)
      case Some(sub) =>
        match Find(profiles, ProfileId, sub)
        case None =>
          assert sub !in Keys(profiles, ProfileId);
          Err(ProfileNotFound)
        case Some(p) => Ok(p)
  }

  /** The result depends on the `sub` claim alone: a token with any other claims (an
      expired `exp`, a foreign `iss`) resolves to the same caller. */
  lemma OnlySubjectMatters(c1: Claims, c2: Claims, profiles: seq<Profile>)
    requires ("sub" in c1) == ("sub" in c2)
    requires "sub" in c1 ==> c1["sub"] == c2["sub"]
    ensures GetCurrentUser(Some(c1), profiles) == GetCurrentUser(Some(c2), profiles)
  {
    assert Subject(c1) == Subject(c2);
  }

  /** An applicant still in the `tempop` table has no profile yet and is refused with 403,
      whatever the applicant table holds. */
  lemma ApplicantIsForbidden(db: Db, claims: Claims)
    requires WellFormed(db)
    requires Subject(claims).Some? && Subject(claims).value in TempopIds(db)
    requires Subject(claims).value !in ProfileIds(db)
    ensures GetCurrentUser(Some(claims), db.profiles) == Err(ProfileNotFound)
  {
  }

  /** With unique profile ids, a known subject resolves to exactly its profile. */
  lemma KnownSubjectResolves(profiles: seq<Profile>, i: nat, claims: Claims)
    requires UniqueKeys(profiles, ProfileId)
    requires i < |profiles| && claims == map["sub" := profiles[i].id]
    requires profiles[i].id != ""
    ensures GetCurrentUser(Some(claims), profiles) == Ok(profiles[i])
  {
    var r := GetCurrentUser(Some(claims), profiles);
    assert profiles[i].id in Keys(profiles, ProfileId);
    var j :| 0 <= j < |profiles| && profiles[j] == r.value;
    assert ProfileId(profiles[j]) == ProfileId(profiles[i]);
  }
}

=== FILE: common.dfy ===
/** Small shared vocabulary: optional values, HTTP error responses, prefix tests and
    order-preserving filters over table rows. */
module Common {

  /** A value that may be absent (Python's `Optional[...]`, TypeScript's `T | null`). */
  datatype Option<+T> = None | Some(value: T)

  /** What FastAPI sends back for a raised `HTTPException`: the status code and the
      `detail` string of the JSON body. */
  datatype HttpError = HttpError(status: int, detail: string)

  /** The outcome of an endpoint: a successful JSON payload or an HTTP error. */
  datatype Response<+T> = Ok(value: T) | Err(error: HttpError)

  /** Python's `str.startswith`, JavaScript's `String.prototype.startsWith`. */
  predicate StartsWith(s: string, prefix: string) {
    |prefix| <= |s| && s[..|prefix|] == prefix
  }

  /** The elements of `s` that satisfy `p`, in their original order
      (a `WHERE` clause over a table held as a sequence). */
  function Filter<T>(s: seq<T>, p: T -> bool): (r: seq<T>)
    ensures |r| <= |s|
    ensures forall x :: x in r ==> x in s && p(x)
    ensures forall x :: x in s && p(x) ==> x in r
    ensures multiset(r) <= multiset(s)
  {
    if |s| == 0 then []
    else
      var rest := Filter(s[1..], p);
      assert s == [s[0]] + s[1..];
      if p(s[0]) then [s[0]] + rest else rest
  }

  /** Filtering distributes over concatenation. */
  lemma {:induction false} FilterConcat<T>(a: seq<T>, b: seq<T>, p: T -> bool)
    ensures Filter(a + b, p) == Filter(a, p) + Filter(b, p)
    decreases |a|
  {
    if |a| == 0 {
      assert a + b == b;
    } else {
      assert (a + b)[1..] == a[1..] + b;
      FilterConcat(a[1..], b, p);
    }
  }

  /** A filter whose condition implies a second one selects a sub-multiset of the second's
      selection. */
  lemma {:induction false} FilterMonotone<T>(s: seq<T>, p: T -> bool, q: T -> bool)
    requires forall x :: p(x) ==> q(x)
    ensures multiset(Filter(s, p)) <= multiset(Filter(s, q))
    decreases |s|
  {
    if |s| > 0 {
      FilterMonotone(s[1..], p, q);
    }
  }

  /** The first row of `s` whose key is `k` (`session.get(Model, k)` on a table keyed by
      `key`), or `None` when there is none. */
  function Find<T, K(==)>(s: seq<T>, key: T -> K, k: K): (r: Option<T>)
    ensures r.Some? ==> r.value in s && key(r.value) == k
    ensures r.None? <==> forall i :: 0 <= i < |s| ==> key(s[i]) != k
  {
    if |s| == 0 then None
    else if key(s[0]) == k then Some(s[0])
    else Find(s[1..], key, k)
  }

  /** The keys present in a table. */
  function Keys<T, K>(s: seq<T>, key: T -> K): set<K> {
    set i | 0 <= i < |s| :: key(s[i])
  }

  /** No two rows of `s` share a key (a primary-key or `UNIQUE` constraint). */
  ghost predicate UniqueKeys<T, K>(s: seq<T>, key: T -> K) {
    forall i, j :: 0 <= i < j < |s| ==> key(s[i]) != key(s[j])
  }

  /** `session.add` followed by a commit: the row replaces the rows with its key, or is
      appended when the key is new. */
  function Put<T, K(==)>(s: seq<T>, key: T -> K, x: T): (r: seq<T>)
    ensures key(x) in Keys(s, key) ==> |r| == |s|
    ensures key(x) !in Keys(s, key) ==> r == s + [x]
    ensures forall i :: 0 <= i < |s| ==> r[i] == (if key(s[i]) == key(x) then x else s[i])
    ensures x in r
  {
    if key(x) in Keys(s, key) then
      seq(|s|, j requires 0 <= j < |s| => if key(s[j]) == key(x) then x else s[j])
    else s + [x]
  }

  /** Putting the same row twice is putting it once. */
  lemma PutTwice<T, K>(s: seq<T>, key: T -> K, x: T)
    ensures Put(Put(s, key, x), key, x) == Put(s, key, x)
  {
    var r := Put(s, key, x);
    assert key(x) in Keys(r, key) by {
      var j :| 0 <= j < |r| && r[j] == x;
    }
    var r2 := Put(r, key, x);
    forall i | 0 <= i < |r|
      ensures r2[i] == r[i]
    {
      if i < |s| {
        assert r[i] == (if key(s[i]) == key(x) then x else s[i]);
      } else {
        assert r == s + [x];
      }
    }
  }

  /** A filter keeps keys unique. */
  lemma {:induction false} FilterUnique<T, K>(s: seq<T>, key: T -> K, p: T -> bool)
    requires UniqueKeys(s, key)
    ensures UniqueKeys(Filter(s, p), key)
    decreases |s|
  {
    if |s| > 0 {
      FilterUnique(s[1..], key, p);
      var rest := Filter(s[1..], p);
      if p(s[0]) {
        forall j | 0 <= j < |rest|
          ensures key(s[0]) != key(rest[j])
        {
          assert rest[j] in s[1..];
        }
        assert forall j :: 0 < j < |rest| + 1 ==> ([s[0]] + rest)[j] == rest[j - 1];
      }
    }
  }

  /** Putting a row keeps keys unique. */
  lemma PutUnique<T, K>(s: seq<T>, key: T -> K, x: T)
    requires UniqueKeys(s, key)
    ensures UniqueKeys(Put(s, key, x), key)
    ensures Keys(Put(s, key, x), key) == Keys(s, key) + {key(x)}
  {
    var r := Put(s, key, x);
    if key(x) in Keys(s, key) {
      assert forall i :: 0 <= i < |s| ==> key(r[i]) == key(s[i]);
      assert Keys(r, key) == Keys(s, key);
    } else {
      assert forall i :: 0 <= i < |s| ==> key(s[i]) != key(x);
      assert Keys(r, key) == Keys(s, key) + {key(x)} by {
        assert forall i :: 0 <= i < |s| ==> key(r[i]) == key(s[i]);
        assert key(r[|s|]) == key(x);
      }
    }
  }

  /** Removing one element from a sequence removes it from the filter's count. */
  lemma FilterRemoveAt<T>(b: seq<T>, i: nat, p: T -> bool)
    requires i < |b|
    ensures |Filter(b, p)| == |Filter(b[..i] + b[i + 1..], p)| + (if p(b[i]) then 1 else 0)
  {
    assert b == b[..i] + ([b[i]] + b[i + 1..]);
    FilterConcat(b[..i], [b[i]] + b[i + 1..], p);
    FilterConcat([b[i]], b[i + 1..], p);
    FilterConcat(b[..i], b[i + 1..], p);
  }

  /** A sub-multiset has no more elements satisfying `p`; in particular a permutation has
      exactly as many. */
  lemma {:induction false} FilterCountMonotone<T>(a: seq<T>, b: seq<T>, p: T -> bool)
    requires multiset(a) <= multiset(b)
    ensures |Filter(a, p)| <= |Filter(b, p)|
    decreases |a|
  {
    if |a| > 0 {
      var x := a[0];
      assert x in multiset(b);
      var i :| 0 <= i < |b| && b[i] == x;
      var b' := b[..i] + b[i + 1..];
      assert b == b[..i] + [x] + b[i + 1..];
      assert multiset(b') == multiset(b) - multiset{x};
      assert a == [x] + a[1..];
      assert multiset(a[1..]) <= multiset(b');
      FilterCountMonotone(a[1..], b', p);
      FilterRemoveAt(b, i, p);
      FilterConcat([x], a[1..], p);
    }
  }
}

=== FILE: files.dfy ===
/** The file-metadata endpoints: `POST /files/` records an uploaded file in the caller's
    name, and `GET /files/` lists the files the caller may see, newest first. */
module Files {
  import opened Common
  import opened Models
  import Sorting

  /** The sort key of `ORDER BY created_at DESC`: ascending on the negated timestamp. */
  function NewestKey(f: File): int {
    0 - f.createdAt as int
  }

  /** Files ordered newest first. Rows with equal timestamps keep their table order. */
  function NewestFirst(files: seq<File>): (r: seq<File>)
    ensures multiset(r) == multiset(files) && |r| == |files|
    ensures forall i, j :: 0 <= i < j < |r| ==> r[i].createdAt >= r[j].createdAt
  {
    var r := Sorting.Sort(files, NewestKey);
    assert forall i, j :: 0 <= i < j < |r| ==> NewestKey(r[i]) <= NewestKey(r[j]);
    r
  }

  predicate OwnedBy(id: Uuid, f: File) {
    f.uploaderId == Some(id)
  }

  /** The largest file id in use, or 0. */
  function MaxFileId(files: seq<File>): (m: int)
    ensures forall i :: 0 <= i < |files| && files[i].id.Some? ==> files[i].id.value <= m
  {
    if |files| == 0 then 0
    else
      var rest := MaxFileId(files[1..]);
      assert forall i :: 1 <= i < |files| ==> files[i] == files[1..][i - 1];
      if files[0].id.Some? && files[0].id.value > rest then files[0].id.value else rest
  }

  /** The row `POST /files/` writes: the submitted record with the caller as uploader,
      and an id from the database's sequence when the client sent none. */
  function StoredRecord(db: Db, caller: Profile, rec: File): (f: File)
    ensures f.uploaderId == Some(caller.id)
    ensures f.id.Some?
    ensures rec.id.Some? ==> f.id == rec.id
    ensures rec.id.None? ==> f.id.value !in set i | 0 <= i < |db.files| && db.files[i].id.Some? :: db.files[i].id.value
    ensures f.(id := rec.id, uploaderId := rec.uploaderId) == rec
  {
    rec.(uploaderId := Some(caller.id), id := if rec.id.Some? then rec.id else Some(MaxFileId(db.files) + 1))
  }

  /** `POST /files/`. The insert fails, and nothing is stored, when the database reports
      an error (`commitFails`, with message `error`), when the record's asset does not
      exist, or when its id is taken. */
  function CreateFileRecord(db: Db, caller: Profile, rec: File, commitFails: bool, error: string)
    : (r: (Db, Response<File>))
    ensures r.1.Ok? ==> r.1.value == StoredRecord(db, caller, rec) && r.0 == db.(files := db.files + [r.1.value])
    ensures r.1.Ok? <==> !commitFails && StoredRecord(db, caller, rec).id !in FileIds(db)
                         && (rec.assetId.Some? ==> rec.assetId.value in AssetIds(db))
    ensures r.1.Err? ==> r == (db, Err(HttpError(500, "Database Error: " + error)))
  {
    var f := StoredRecord(db, caller, rec);
    if commitFails || f.id in FileIds(db) || (f.assetId.Some? && f.assetId.value !in AssetIds(db)) then
      (db, Err(HttpError(500, "Database Error: " + error)))
    else (db.(files := db.files + [f]), Ok(f))
  }

  /** A successful create keeps the database well formed. */
  lemma CreateFileRecordWellFormed(db: Db, caller: Profile, rec: File, commitFails: bool, error: string)
    requires WellFormed(db)
    ensures WellFormed(CreateFileRecord(db, caller, rec, commitFails, error).0)
  {
    var r := CreateFileRecord(db, caller, rec, commitFails, error);
    if r.1.Ok? {
      PutUnique(db.files, FileId, r.1.value);
      assert Put(db.files, FileId, r.1.value) == r.0.files;
    }
  }

  /** `GET /files/`: an administrator sees every file, anyone else the files they
      uploaded; newest first either way. */
  function ReadFiles(db: Db, caller: Profile): (r: seq<File>)
    ensures caller.role == "admin" ==> multiset(r) == multiset(db.files)
    ensures caller.role != "admin" ==> multiset(r) == multiset(Filter(db.files, f => OwnedBy(caller.id, f)))
    ensures forall f :: f in r <==> f in db.files && (caller.role == "admin" || f.uploaderId == Some(caller.id))
    ensures forall i, j :: 0 <= i < j < |r| ==> r[i].createdAt >= r[j].createdAt
  {
    var visible := if caller.role == "admin" then db.files else Filter(db.files, f => OwnedBy(caller.id, f));
    var r := NewestFirst(visible);
    assert forall f :: f in r <==> f in visible by {
      forall f
        ensures f in r <==> f in visible
      {
        assert f in r <==> f in multiset(r);
        assert f in visible <==> f in multiset(visible);
      }
    }
    r
  }

  /** What a non-administrator sees is part of what an administrator sees. */
  lemma OwnFilesWithinAll(db: Db, caller: Profile)
    requires caller.role != "admin"
    ensures multiset(ReadFiles(db, caller)) <= multiset(ReadFiles(db, caller.(role := "admin")))
  {
  }

  /** A file recorded by a caller appears in that caller's own listing, whatever the
      uploader the client claimed. */
  lemma CreatedFileIsListed(db: Db, caller: Profile, rec: File, commitFails: bool, error: string)
    requires CreateFileRecord(db, caller, rec, commitFails, error).1.Ok?
    ensures CreateFileRecord(db, caller, rec, commitFails, error).1.value
            in ReadFiles(CreateFileRecord(db, caller, rec, commitFails, error).0, caller)
  {
    var r := CreateFileRecord(db, caller, rec, commitFails, error);
    assert r.1.value in r.0.files;
  }
}

=== FILE: lrc_parser.dfy ===
/** `parseLrc` of the player's lyric utility: the text is split into lines, every
    `[m:ss.xxx]` timestamp of a line becomes one raw entry carrying the line's text,
    the entries are sorted by time, and entries less than 200 ms after the start of the
    previous output line are merged into it as a second language.

    Times are integer milliseconds where the source uses floating-point seconds. */
module LrcParser {
  import opened LrcText
  import opened LrcScan
  import LrcTags
  import Sorting

  /** One output line: its start time in milliseconds and its text, which holds two
      languages separated by a line feed once entries have been merged. */
  datatype LyricLine = LyricLine(time: int, text: string)

  /** Entries closer than this are merged (0.2 s). */
  const MergeWindowMs: int := 200

  // ---------------------------------------------------------------- timestamps

  function DigitValue(c: char): nat
    requires IsDigit(c)
  {
    (c as int) - ('0' as int)
  }

  /** `parseInt(d, 10)` of a string of decimal digits (leading zeros allowed). */
  function DecimalValue(d: string): nat
    requires AllDigits(d)
  {
    if |d| == 0 then 0 else DecimalValue(d[..|d| - 1]) * 10 + DigitValue(d[|d| - 1])
  }

  function Pow10(n: nat): nat {
    if n == 0 then 1 else 10 * Pow10(n - 1)
  }

  /** `f.padEnd(3, '0')`: right-padded with zeros to three characters. */
  function PadEnd3(f: string): (r: string)
    requires |f| <= 3
  {
    f + Zeros(3 - |f|)
  }

  /** The fraction group in milliseconds: `.5` is 500, `.05` is 50, `.005` is 5, and a
      missing fraction is 0. */
  function FractionMs(f: string): nat
    requires |f| <= 3 && AllDigits(f)
  {
    if f == "" then 0 else DecimalValue(PadEnd3(f))
  }

  /** The time of a timestamp: `min * 60 + sec + ms / 1000` seconds, in milliseconds. */
  function TagTimeMs(t: TimeTag): nat
    requires ValidTag(t)
  {
    (DecimalValue(t.minutes) * 60 + DecimalValue(t.seconds)) * 1000 + FractionMs(t.fraction)
  }

  /** A decimal string of `n` digits denotes less than `10^n`. */
  lemma {:induction false} DecimalValueBound(d: string)
    requires AllDigits(d)
    ensures DecimalValue(d) < Pow10(|d|)
    decreases |d|
  {
    if |d| > 0 {
      DecimalValueBound(d[..|d| - 1]);
    }
  }

  /** Appending a zero digit multiplies the value by ten. */
  lemma {:induction false} DecimalValueAppendZero(d: string)
    requires AllDigits(d)
    ensures AllDigits(d + "0") && DecimalValue(d + "0") == 10 * DecimalValue(d)
  {
    assert (d + "0")[..|d|] == d;
  }

  /** Padding a digit string of length `n` with `m` zeros scales it by `10^m`. */
  function Zeros(m: nat): (z: string)
    ensures |z| == m && AllDigits(z)
  {
    seq(m, _ => '0')
  }

  lemma {:induction false} DecimalValuePadded(d: string, m: nat)
    requires AllDigits(d)
    ensures AllDigits(d + Zeros(m))
    ensures DecimalValue(d + Zeros(m)) == DecimalValue(d) * Pow10(m)
    decreases m
  {
    if m == 0 {
      assert d + Zeros(m) == d;
    } else {
      var z := Zeros(m - 1);
      DecimalValuePadded(d, m - 1);
      DecimalValueAppendZero(d + z);
      assert d + Zeros(m) == (d + z) + "0";
      ScaleByTen(DecimalValue(d), Pow10(m - 1));
    }
  }

  lemma ScaleByTen(v: nat, p: nat)
    ensures v * (10 * p) == 10 * (v * p)
  {
  }

  /** The fraction is scaled by its number of digits, and always stays below a second. */
  lemma FractionScaling(f: string)
    requires 1 <= |f| <= 3 && AllDigits(f)
    ensures FractionMs(f) == DecimalValue(f) * Pow10(3 - |f|)
    ensures FractionMs(f) < 1000
  {
    var v := DecimalValue(f);
    DecimalValuePadded(f, 3 - |f|);
    assert FractionMs(f) == v * Pow10(3 - |f|);
    DecimalValueBound(f);
    assert Pow10(0) == 1 && Pow10(1) == 10 && Pow10(2) == 100 && Pow10(3) == 1000;
    if |f| == 1 {
      assert v < 10 && Pow10(3 - |f|) == 100;
    } else if |f| == 2 {
      assert v < 100 && Pow10(3 - |f|) == 10;
    } else {
      assert v < 1000 && Pow10(3 - |f|) == 1;
    }
  }

  /** The three examples in `parseLrc`'s comment. */
  lemma FractionExamples()
    ensures FractionMs("5") == 500 && FractionMs("05") == 50 && FractionMs("005") == 5
  {
    FractionScaling("5");
    FractionScaling("05");
    FractionScaling("005");
    assert "5"[..0] == "" && "05"[..1] == "0" && "0"[..0] == "";
    assert "005"[..2] == "00" && "00"[..1] == "0";
  }

  /** The millisecond time splits back into whole seconds (`min * 60 + sec`) and the
      fraction: no two different second counts or fractions give the same time. */
  lemma TagTimeDecomposes(t: TimeTag)
    requires ValidTag(t)
    ensures TagTimeMs(t) / 1000 == DecimalValue(t.minutes) * 60 + DecimalValue(t.seconds)
    ensures TagTimeMs(t) % 1000 == FractionMs(t.fraction)
  {
    if t.fraction != "" {
      FractionScaling(t.fraction);
    }
  }

  // ---------------------------------------------------------------- raw entries

  /** Every match the scanner reports carries a well-formed timestamp. */
  lemma ScanTagsValid(s: string)
    ensures forall k :: 0 <= k < |Scan(s, 0)| ==> ValidTag(Scan(s, 0)[k].tag)
  {
    forall k | 0 <= k < |Scan(s, 0)|
      ensures ValidTag(Scan(s, 0)[k].tag)
    {
      ScanSound(s, 0, k);
    }
  }

  /** One entry per timestamp, all with the same text. */
  function TagEntries(ms: seq<TagMatch>, text: string): (es: seq<LyricLine>)
    requires forall k :: 0 <= k < |ms| ==> ValidTag(ms[k].tag)
    ensures |es| == |ms|
    ensures forall k :: 0 <= k < |es| ==> es[k] == LyricLine(TagTimeMs(ms[k].tag), text)
  {
    if |ms| == 0 then [] else [LyricLine(TagTimeMs(ms[0].tag), text)] + TagEntries(ms[1..], text)
  }

  /** The raw entries of one line. A line counts only when it has at least one timestamp
      and some text left once every timestamp is removed and the rest trimmed; it then
      gives one entry per timestamp, in order, all with that text. */
  function LineEntries(line: string): (es: seq<LyricLine>)
    ensures |es| > 0 <==> |Scan(line, 0)| > 0 && Trim(Strip(line, 0)) != ""
    ensures |es| > 0 ==> |es| == |Scan(line, 0)|
    ensures forall k :: 0 <= k < |es| ==>
              && ValidTag(Scan(line, 0)[k].tag)
              && es[k].time == TagTimeMs(Scan(line, 0)[k].tag)
              && es[k].text == Trim(Strip(line, 0))
  {
    var ms := Scan(line, 0);
    var text := Trim(Strip(line, 0));
    ScanTagsValid(line);
    if |ms| == 0 || text == "" then [] else TagEntries(ms, text)
  }

  /** The raw entries of all lines, line by line. */
  function RawEntries(lines: seq<string>): seq<LyricLine>
  {
    if |lines| == 0 then [] else LineEntries(lines[0]) + RawEntries(lines[1..])
  }

  /** A line made of one timestamp followed by lyric text without `[` yields exactly one
      entry: the timestamp's time and the trimmed text. */
  lemma SingleTagLine(t: TimeTag, text: string)
    requires ValidTag(t)
    requires forall p :: 0 <= p < |text| ==> text[p] != '['
    requires Trim(text) != ""
    ensures LineEntries(Render(t) + text) == [LyricLine(TagTimeMs(t), Trim(text))]
  {
    var s := Render(t) + text;
    var n := |Render(t)|;
    RenderMatchRoundTrip(t, text);
    forall p | n <= p < |s|
      ensures s[p] != '['
    {
      assert s[p] == text[p - n];
    }
    LrcTags.NoBracketNoTags(s, n);
    assert s[n..] == text;
    assert Scan(s, 0) == [TagMatch(0, n, t)] + Scan(s, n);
    assert Strip(s, 0) == Strip(s, n);
  }

  /** A line with two timestamps before lyric text without `[` (a chorus sung twice)
      yields two entries, one per timestamp in order, both with the trimmed text. */
  lemma TwoTagLine(t1: TimeTag, t2: TimeTag, text: string)
    requires ValidTag(t1) && ValidTag(t2)
    requires forall p :: 0 <= p < |text| ==> text[p] != '['
    requires Trim(text) != ""
    ensures LineEntries(Render(t1) + Render(t2) + text)
         == [LyricLine(TagTimeMs(t1), Trim(text)), LyricLine(TagTimeMs(t2), Trim(text))]
  {
    LrcTags.TwoTagScan(Render(t1) + Render(t2) + text, t1, t2, text);
  }

  // ---------------------------------------------------------------- ordering

  function TimeOf(l: LyricLine): int {
    l.time
  }

  /** `rawEntries.sort((a, b) => a.time - b.time)`: stable, ascending by time. */
  function SortByTime(es: seq<LyricLine>): (r: seq<LyricLine>)
    ensures Sorting.SortedBy(r, TimeOf)
    ensures multiset(r) == multiset(es)
    ensures forall t :: Sorting.WithKey(r, TimeOf, t) == Sorting.WithKey(es, TimeOf, t)
  {
    forall t
      ensures Sorting.WithKey(Sorting.Sort(es, TimeOf), TimeOf, t) == Sorting.WithKey(es, TimeOf, t)
    {
      Sorting.SortStable(es, TimeOf, t);
    }
    Sorting.Sort(es, TimeOf)
  }

  // ---------------------------------------------------------------- merging

  function Abs(x: int): nat {
    if x < 0 then -x else x
  }

  /** The bilingual text of a merge. The incoming text goes first exactly when the
      accumulated text contains a CJK character and the incoming one does not, so that the
      original-language line becomes the main line; otherwise it is appended. Either way
      the result holds both texts, one line feed apart. */
  function MergeText(acc: string, incoming: string): string {
    if HasChinese(acc) && !HasChinese(incoming) then incoming + "\n" + acc
    else acc + "\n" + incoming
  }

  /** Splitting at a separator placed between two texts splits each text on its own. */
  lemma SplitConcat(a: string, b: string, sep: char)
    ensures Split(a + [sep] + b, sep) == Split(a, sep) + Split(b, sep)
  {
    var pa := Split(a, sep);
    var pb := Split(b, sep);
    JoinSplit(a, sep);
    JoinSplit(b, sep);
    JoinConcat(pa, pb, sep);
    assert forall k :: 0 <= k < |pa + pb| ==> sep !in (pa + pb)[k] by {
      forall k | 0 <= k < |pa + pb|
        ensures sep !in (pa + pb)[k]
      {
        if k < |pa| {
          assert (pa + pb)[k] == pa[k];
        } else {
          assert (pa + pb)[k] == pb[k - |pa|];
        }
      }
    }
    SplitJoin(pa + pb, sep);
  }

  /** The lines of a merged text are the lines of the two texts: the foreign-language ones
      first when the accumulated text is Chinese and the incoming one is not, and the
      accumulated ones first otherwise. Nothing is lost and nothing else is added. */
  lemma MergeTextLines(acc: string, incoming: string)
    ensures HasChinese(acc) && !HasChinese(incoming) ==>
              Split(MergeText(acc, incoming), '\n') == Split(incoming, '\n') + Split(acc, '\n')
    ensures !(HasChinese(acc) && !HasChinese(incoming)) ==>
              Split(MergeText(acc, incoming), '\n') == Split(acc, '\n') + Split(incoming, '\n')
    ensures HasChinese(MergeText(acc, incoming)) <==> HasChinese(acc) || HasChinese(incoming)
  {
    SplitConcat(incoming, acc, '\n');
    SplitConcat(acc, incoming, '\n');
    HasChineseConcat(incoming + "\n", acc);
    HasChineseConcat(incoming, "\n");
    HasChineseConcat(acc + "\n", incoming);
    HasChineseConcat(acc, "\n");
    assert !IsChineseChar('\n');
    assert !HasChinese("\n");
  }

  /** The entry `e` falls within the merge window of the last line built so far. */
  predicate JoinsLast(acc: seq<LyricLine>, e: LyricLine) {
    |acc| > 0 && Abs(acc[|acc| - 1].time - e.time) < MergeWindowMs
  }

  /** One iteration of the merge loop over the sorted entries. An entry within the window
      of the last output line joins it (its time stays that of the line), unless its text
      equals the line's current text, in which case it is dropped; any other entry starts a
      new output line. */
  function MergeStep(acc: seq<LyricLine>, e: LyricLine): (r: seq<LyricLine>)
    ensures JoinsLast(acc, e) ==>
              |r| == |acc| && r[..|r| - 1] == acc[..|acc| - 1] && r[|r| - 1].time == acc[|acc| - 1].time
    ensures JoinsLast(acc, e) && acc[|acc| - 1].text == e.text ==> r == acc
    ensures (JoinsLast(acc, e) && acc[|acc| - 1].text != e.text
             && HasChinese(acc[|acc| - 1].text) && !HasChinese(e.text)) ==>
              r[|r| - 1].text == e.text + "\n" + acc[|acc| - 1].text
    ensures (JoinsLast(acc, e) && acc[|acc| - 1].text != e.text
             && !(HasChinese(acc[|acc| - 1].text) && !HasChinese(e.text))) ==>
              r[|r| - 1].text == acc[|acc| - 1].text + "\n" + e.text
    ensures !JoinsLast(acc, e) ==> r == acc + [e]
  {
    if JoinsLast(acc, e) then
      var last := acc[|acc| - 1];
      if last.text != e.text then acc[..|acc| - 1] + [LyricLine(last.time, MergeText(last.text, e.text))]
      else acc
    else acc + [e]
  }

  /** The merge loop, continued from the lines built so far. */
  function MergeFrom(acc: seq<LyricLine>, es: seq<LyricLine>): seq<LyricLine>
    decreases |es|
  {
    if |es| == 0 then acc else MergeFrom(MergeStep(acc, es[0]), es[1..])
  }

  function Merge(es: seq<LyricLine>): seq<LyricLine> {
    MergeFrom([], es)
  }

  /** Consecutive lines start at least the merge window apart. */
  ghost predicate Gapped(s: seq<LyricLine>) {
    forall i :: 0 <= i < |s| - 1 ==> s[i].time + MergeWindowMs <= s[i + 1].time
  }

  /** The times of a list of lines. */
  function Times(s: seq<LyricLine>): set<int> {
    set x | x in s :: x.time
  }

  /** A merge step keeps the lines spaced when the entry does not start before the last
      line, and leaves a last line that does not start after the entry. */
  lemma MergeStepGapped(acc: seq<LyricLine>, e: LyricLine)
    requires Gapped(acc)
    requires |acc| > 0 ==> acc[|acc| - 1].time <= e.time
    ensures Gapped(MergeStep(acc, e))
    ensures |MergeStep(acc, e)| > 0 && MergeStep(acc, e)[|MergeStep(acc, e)| - 1].time <= e.time
  {
    var r := MergeStep(acc, e);
    if JoinsLast(acc, e) {
      forall i | 0 <= i < |r|
        ensures r[i].time == acc[i].time
      {
        if i < |r| - 1 {
          assert r[i] == r[..|r| - 1][i];
          assert acc[i] == acc[..|acc| - 1][i];
        }
      }
    }
  }

  /** Merging a time-sorted list keeps the output spaced by the window: every output line
      starts with the first entry outside the previous line's window. */
  lemma {:induction false} MergeFromGapped(acc: seq<LyricLine>, es: seq<LyricLine>)
    requires Gapped(acc) && Sorting.SortedBy(es, TimeOf)
    requires |acc| > 0 ==> forall k :: 0 <= k < |es| ==> acc[|acc| - 1].time <= es[k].time
    ensures Gapped(MergeFrom(acc, es))
    decreases |es|
  {
    if |es| > 0 {
      var e := es[0];
      var rest := es[1..];
      MergeStepGapped(acc, e);
      var acc' := MergeStep(acc, e);
      assert MergeFrom(acc, es) == MergeFrom(acc', rest);
      forall k | 0 <= k < |rest|
        ensures acc'[|acc'| - 1].time <= rest[k].time
      {
        assert TimeOf(es[0]) <= TimeOf(es[k + 1]);
      }
      forall a, b | 0 <= a < b < |rest|
        ensures TimeOf(rest[a]) <= TimeOf(rest[b])
      {
        assert TimeOf(es[a + 1]) <= TimeOf(es[b + 1]);
      }
      MergeFromGapped(acc', rest);
    }
  }

  /** Merging never creates lines: at most one output line per entry. */
  lemma {:induction false} MergeFromLength(acc: seq<LyricLine>, es: seq<LyricLine>)
    ensures |MergeFrom(acc, es)| <= |acc| + |es|
    decreases |es|
  {
    if |es| > 0 {
      MergeFromLength(MergeStep(acc, es[0]), es[1..]);
    }
  }

  /** Every output time is the time of some entry: merged lines keep the time of the
      entry that opened them. */
  lemma {:induction false} MergeFromTimes(acc: seq<LyricLine>, es: seq<LyricLine>)
    ensures Times(MergeFrom(acc, es)) <= Times(acc) + Times(es)
    decreases |es|
  {
    if |es| > 0 {
      var acc' := MergeStep(acc, es[0]);
      assert Times(acc') <= Times(acc) + {es[0].time} by {
        forall x | x in acc'
          ensures x.time in Times(acc) + {es[0].time}
        {
          var i :| 0 <= i < |acc'| && acc'[i] == x;
          if |acc| > 0 && Abs(acc[|acc| - 1].time - es[0].time) < MergeWindowMs {
            if i < |acc'| - 1 {
              assert acc'[..|acc'| - 1][i] == x;
              assert acc[i] == x;
            } else {
              assert acc[|acc| - 1] in acc;
            }
          }
        }
      }
      MergeFromTimes(acc', es[1..]);
      assert es == [es[0]] + es[1..];
      assert Times(es) == {es[0].time} + Times(es[1..]);
    }
  }

  /** Entries already spaced by the window are left exactly as they are. */
  lemma {:induction false} MergeOfSpaced(acc: seq<LyricLine>, es: seq<LyricLine>)
    requires Gapped(acc + es)
    ensures MergeFrom(acc, es) == acc + es
    decreases |es|
  {
    if |es| > 0 {
      var e := es[0];
      if |acc| > 0 {
        assert (acc + es)[|acc| - 1] == acc[|acc| - 1];
        assert (acc + es)[|acc|] == e;
      }
      assert MergeStep(acc, e) == acc + [e];
      assert acc + [e] + es[1..] == acc + es;
      MergeOfSpaced(acc + [e], es[1..]);
    }
  }

  // ---------------------------------------------------------------- parseLrc

  /** The raw entries of a whole text: one list for all of its lines. */
  function RawOf(lrc: string): seq<LyricLine> {
    RawEntries(Split(lrc, '\n'))
  }

  /** Sorting and merging a list of raw entries: the output is spaced by the window, has
      at most one line per entry, and takes every time from an entry. */
  function SortAndMerge(raw: seq<LyricLine>): (r: seq<LyricLine>)
    ensures Gapped(r)
    ensures |r| <= |raw|
    ensures Times(r) <= Times(raw)
  {
    var sorted := SortByTime(raw);
    MergeFromGapped([], sorted);
    MergeFromLength([], sorted);
    MergeFromTimes([], sorted);
    assert Times(sorted) == Times(raw) by {
      forall x | x in sorted ensures x in raw {
        assert x in multiset(sorted);
      }
      forall x | x in raw ensures x in sorted {
        assert x in multiset(raw);
      }
    }
    Merge(sorted)
  }

  /** `parseLrc`. Empty input gives no lines. The output is in ascending time order with
      consecutive lines at least 200 ms apart, it has at most one line per raw entry, and
      each output time is the time of a raw entry. */
  function ParseLrc(lrc: string): (r: seq<LyricLine>)
    ensures lrc == "" ==> r == []
    ensures Gapped(r)
    ensures |r| <= |RawOf(lrc)|
    ensures Times(r) <= Times(RawOf(lrc))
  {
    if lrc == "" then [] else SortAndMerge(RawOf(lrc))
  }

  /** Consecutive spacing orders all output lines: a later line starts at least the window
      after any earlier one. */
  lemma {:induction false} GappedAscending(s: seq<LyricLine>, i: nat, j: nat)
    requires Gapped(s) && i < j < |s|
    ensures s[i].time + MergeWindowMs <= s[j].time
    decreases j - i
  {
    if j > i + 1 {
      GappedAscending(s, i, j - 1);
    }
  }

  /** A text without line feeds is one line. */
  lemma RawOfOneLine(line: string)
    requires '\n' !in line
    ensures RawOf(line) == LineEntries(line)
  {
    SplitJoin([line], '\n');
    assert Split(line, '\n') == [line];
    assert RawEntries([line]) == LineEntries(line) + RawEntries([]);
  }

  /** A text with a single raw entry parses to that entry. */
  lemma ParseOfOneEntry(lrc: string, e: LyricLine)
    requires lrc != "" && RawOf(lrc) == [e]
    ensures ParseLrc(lrc) == [e]
  {
    SortAndMergeOne(e);
  }

  lemma SortAndMergeOne(e: LyricLine)
    ensures SortAndMerge([e]) == [e]
  {
    Sorting.SortOfSorted([e], TimeOf);
    assert SortByTime([e]) == [e];
    assert MergeStep([], e) == [e];
    assert MergeFrom([], [e]) == MergeFrom([e], []);
  }

  /** A one-line lyric file with one timestamp parses to exactly that lyric line. */
  lemma ParseSingleLine(t: TimeTag, text: string)
    requires ValidTag(t)
    requires forall p :: 0 <= p < |text| ==> text[p] != '[' && text[p] != '\n'
    requires Trim(text) != ""
    ensures ParseLrc(Render(t) + text) == [LyricLine(TagTimeMs(t), Trim(text))]
  {
    var line := Render(t) + text;
    SingleTagLine(t, text);
    RenderHasNoLineFeed(t);
    assert '\n' !in line by {
      forall p | 0 <= p < |line|
        ensures line[p] != '\n'
      {
        if p >= |Render(t)| {
          assert line[p] == text[p - |Render(t)|];
        }
      }
    }
    RawOfOneLine(line);
    ParseOfOneEntry(line, LyricLine(TagTimeMs(t), Trim(text)));
  }

  /** A rendered timestamp holds no line feed. */
  lemma RenderHasNoLineFeed(t: TimeTag)
    requires ValidTag(t)
    ensures '\n' !in Render(t)
  {
    assert forall c :: c in t.minutes ==> IsDigit(c);
    assert forall c :: c in t.seconds ==> IsDigit(c);
    assert forall c :: c in t.fraction ==> IsDigit(c);
  }

  /** A Chinese line followed within the window by its English translation becomes one
      line with the English text first. */
  lemma MergeChineseThenEnglish()
    ensures Merge([LyricLine(1000, "你好"), LyricLine(1100, "Hello")]) == [LyricLine(1000, "Hello\n你好")]
  {
    assert IsChineseChar("你好"[0]);
    assert HasChinese("你好");
    assert !HasChinese("Hello") by {
      forall k | 0 <= k < 5 ensures !IsChineseChar("Hello"[k]) {}
    }
    assert MergeText("你好", "Hello") == "Hello\n你好";
    var es := [LyricLine(1000, "你好"), LyricLine(1100, "Hello")];
    assert MergeFrom([], es) == MergeFrom([es[0]], es[1..]);
    assert MergeStep([es[0]], es[1]) == [LyricLine(1000, "Hello\n你好")];
  }

  /** An English line followed by its Chinese translation keeps the English text first. */
  lemma MergeEnglishThenChinese()
    ensures Merge([LyricLine(1000, "Hello"), LyricLine(1100, "你好")]) == [LyricLine(1000, "Hello\n你好")]
  {
    assert !HasChinese("Hello") by {
      forall k | 0 <= k < 5 ensures !IsChineseChar("Hello"[k]) {}
    }
    assert MergeText("Hello", "你好") == "Hello\n你好";
    var fs := [LyricLine(1000, "Hello"), LyricLine(1100, "你好")];
    assert MergeFrom([], fs) == MergeFrom([fs[0]], fs[1..]);
    assert MergeStep([fs[0]], fs[1]) == [LyricLine(1000, "Hello\n你好")];
  }

  /** A repeated text within the window is dropped; at 200 ms it starts a new line. The
      edge is taken at time 0, where `0.2 - 0 < 0.2` is false in doubles as well. */
  lemma MergeWindowEdge()
    ensures Merge([LyricLine(0, "Hi"), LyricLine(199, "Hi")]) == [LyricLine(0, "Hi")]
    ensures Merge([LyricLine(0, "Hi"), LyricLine(200, "Hi")]) == [LyricLine(0, "Hi"), LyricLine(200, "Hi")]
  {
    var gs := [LyricLine(0, "Hi"), LyricLine(199, "Hi")];
    assert MergeStep([], gs[0]) == [gs[0]];
    assert MergeFrom([], gs) == MergeFrom([gs[0]], gs[1..]);
    assert JoinsLast([gs[0]], gs[1]) && MergeStep([gs[0]], gs[1]) == [gs[0]];
    assert MergeFrom([gs[0]], gs[1..]) == MergeFrom([gs[0]], []);
    var hs := [LyricLine(0, "Hi"), LyricLine(200, "Hi")];
    assert MergeStep([], hs[0]) == [hs[0]];
    assert MergeFrom([], hs) == MergeFrom([hs[0]], hs[1..]);
    assert !JoinsLast([hs[0]], hs[1]) && MergeStep([hs[0]], hs[1]) == hs;
    assert MergeFrom([hs[0]], hs[1..]) == MergeFrom(hs, []);
  }
}

=== FILE: lrc_scan.dfy ===
/** The timestamp scanner of the LRC parser. It stands in for the global regular
    expression `/\[(\d{1,3}):(\d{1,2})(?:\.(\d{1,3}))?\]/g` as used by `matchAll` and
    `replace`: the matches are found left to right and never overlap.

    Because `\d` is the ASCII digits and every quantifier is followed by a character
    that is not a digit (`:`, `.` or `]`), backtracking never helps: a match at `i`
    exists exactly when the MAXIMAL digit runs after `[`, after `:` and after `.` have
    the allowed lengths and are followed by the expected punctuation. `MatchAt` states
    that directly. */
module LrcScan {
  import opened Common

  /** `\d` without the `u` flag. */
  predicate IsDigit(c: char) {
    '0' <= c <= '9'
  }

  predicate AllDigits(d: string) {
    forall k :: 0 <= k < |d| ==> IsDigit(d[k])
  }

  /** Length of the maximal run of digits that starts at `i`. */
  function DigitRun(s: string, i: nat): (n: nat)
    requires i <= |s|
    ensures i + n <= |s|
    ensures forall k :: i <= k < i + n ==> IsDigit(s[k])
    ensures i + n == |s| || !IsDigit(s[i + n])
    decreases |s| - i
  {
    if i < |s| && IsDigit(s[i]) then 1 + DigitRun(s, i + 1) else 0
  }

  /** The three capture groups of one timestamp: minutes, seconds and the optional
      fraction (empty when the `.xxx` part is absent). */
  datatype TimeTag = TimeTag(minutes: string, seconds: string, fraction: string)

  /** A match of the timestamp pattern: it covers `s[start..end]`. */
  datatype TagMatch = TagMatch(start: nat, end: nat, tag: TimeTag)

  /** The shapes the pattern admits: 1-3 minute digits, 1-2 second digits, 0-3 fraction
      digits. */
  predicate ValidTag(t: TimeTag) {
    && 1 <= |t.minutes| <= 3 && AllDigits(t.minutes)
    && 1 <= |t.seconds| <= 2 && AllDigits(t.seconds)
    && |t.fraction| <= 3 && AllDigits(t.fraction)
  }

  /** The text a tag matches: `[m:s]` or `[m:s.f]`. */
  function Render(t: TimeTag): string {
    "[" + t.minutes + ":" + t.seconds + RenderTail(t.fraction)
  }

  /** What follows the seconds: `]` or `.f]`. */
  function RenderTail(fraction: string): string {
    if fraction == "" then "]" else "." + fraction + "]"
  }

  lemma SliceSplit(s: string, a: nat, b: nat, c: nat)
    requires a <= b <= c <= |s|
    ensures s[a..c] == s[a..b] + s[b..c]
  {
  }

  /** Reading a rendered tag back off the text, piece by piece. */
  lemma RenderedAt(s: string, i: nat, t: TimeTag, e: nat)
    requires var j := i + 1 + |t.minutes|;
             var k := j + 1 + |t.seconds|;
             && e == k + |RenderTail(t.fraction)| <= |s|
             && s[i] == '[' && s[i + 1..j] == t.minutes && s[j] == ':'
             && s[j + 1..k] == t.seconds && s[k..e] == RenderTail(t.fraction)
    ensures s[i..e] == Render(t)
  {
    var j := i + 1 + |t.minutes|;
    var k := j + 1 + |t.seconds|;
    SliceSplit(s, i, i + 1, j);
    SliceSplit(s, i, j, j + 1);
    SliceSplit(s, i, j + 1, k);
    SliceSplit(s, i, k, e);
    assert s[i..i + 1] == "[";
    assert s[j..j + 1] == ":";
  }

  /** The match of the pattern that starts exactly at `i`, if there is one. */
  function MatchAt(s: string, i: nat): (r: Option<TagMatch>)
    ensures r.Some? ==> i < |s| && s[i] == '['
    ensures r.Some? ==> r.value.start == i && i < r.value.end <= |s| && ValidTag(r.value.tag)
    ensures r.Some? ==> forall p :: i < p < r.value.end ==> s[p] != '['
  {
    if i < |s| && s[i] == '[' then
      MatchSound(s, i);
      MatchMinutes(s, i)
    else None
  }

  /** After `[` at `i`: 1-3 digits, then `:`. */
  function MatchMinutes(s: string, i: nat): Option<TagMatch>
    requires i < |s|
  {
    var m := DigitRun(s, i + 1);
    var j := i + 1 + m;
    if 1 <= m <= 3 && j < |s| && s[j] == ':' then MatchSeconds(s, i, j) else None
  }

  /** After `:` at `j`: 1-2 digits, then `]` or a fraction. */
  function MatchSeconds(s: string, i: nat, j: nat): Option<TagMatch>
    requires i < j < |s|
  {
    var n := DigitRun(s, j + 1);
    var k := j + 1 + n;
    if !(1 <= n <= 2) || k >= |s| then None
    else if s[k] == ']' then Some(TagMatch(i, k + 1, TimeTag(s[i + 1..j], s[j + 1..k], "")))
    else if s[k] == '.' then MatchFraction(s, i, j, k)
    else None
  }

  /** After `.` at `k`: 1-3 digits, then `]`. */
  function MatchFraction(s: string, i: nat, j: nat, k: nat): Option<TagMatch>
    requires i < j < k < |s|
  {
    var f := DigitRun(s, k + 1);
    var e := k + 1 + f;
    if 1 <= f <= 3 && e < |s| && s[e] == ']' then
      Some(TagMatch(i, e + 1, TimeTag(s[i + 1..j], s[j + 1..k], s[k + 1..e])))
    else None
  }

  /** The digits of a run form a digit string. */
  lemma DigitsSlice(s: string, a: nat, b: nat)
    requires a <= b <= |s|
    requires forall q :: a <= q < b ==> IsDigit(s[q])
    ensures AllDigits(s[a..b])
  {
    forall q | 0 <= q < b - a
      ensures IsDigit(s[a..b][q])
    {
      assert s[a..b][q] == s[a + q];
    }
  }

  /** What `MatchAt` promises, read off the three stages: the match starts at `i`, ends
      within the text, has a valid tag, and only digits and punctuation other than `[`
      follow the opening bracket. */
  lemma MatchSound(s: string, i: nat)
    requires i < |s|
    ensures var r := MatchMinutes(s, i);
      r.Some? ==>
        && r.value.start == i && i < r.value.end <= |s| && ValidTag(r.value.tag)
        && forall p :: i < p < r.value.end ==> s[p] != '['
  {
    if MatchMinutes(s, i).Some? {
      var j := MinutesShape(s, i);
      var k := SecondsShape(s, i, j);
      DigitsSlice(s, i + 1, j);
      DigitsSlice(s, j + 1, k);
      if s[k] == ']' {
        NoBracketInside(s, i, j, k, k);
      } else {
        var e := FractionShape(s, i, j, k);
        DigitsSlice(s, k + 1, e);
        NoBracketInside(s, i, j, k, e);
      }
    }
  }

  /** Between the opening `[` at `i` and the closing `]` at `e` there are only digits,
      the `:` at `j` and the `]` or `.` at `k`. */
  lemma NoBracketInside(s: string, i: nat, j: nat, k: nat, e: nat)
    requires i < j < k <= e < |s| && s[j] == ':' && s[k] != '[' && s[e] == ']'
    requires forall q :: i < q < j ==> IsDigit(s[q])
    requires forall q :: j < q < k ==> IsDigit(s[q])
    requires forall q :: k < q < e ==> IsDigit(s[q])
    ensures forall p :: i < p < e + 1 ==> s[p] != '['
  {
    forall p | i < p < e + 1
      ensures s[p] != '['
    {
      if p < j || j < p < k || k < p < e {
        assert IsDigit(s[p]);
      }
    }
  }

  /** A match covers exactly the rendering of its tag. */
  lemma MatchAtRenders(s: string, i: nat)
    requires MatchAt(s, i).Some?
    ensures s[i..MatchAt(s, i).value.end] == Render(MatchAt(s, i).value.tag)
  {
    assert MatchAt(s, i) == MatchMinutes(s, i);
    var j := MinutesShape(s, i);
    var k := SecondsShape(s, i, j);
    var r := MatchAt(s, i).value;
    if s[k] == ']' {
      assert r == TagMatch(i, k + 1, TimeTag(s[i + 1..j], s[j + 1..k], ""));
      RendersPlain(s, i, j, k);
    } else {
      var e := FractionShape(s, i, j, k);
      assert r == TagMatch(i, e + 1, TimeTag(s[i + 1..j], s[j + 1..k], s[k + 1..e]));
      RendersWithFraction(s, i, j, k, e);
    }
  }

  /** A successful match has its minutes' digits up to the `:` at `j`. */
  lemma MinutesShape(s: string, i: nat) returns (j: nat)
    requires i < |s| && MatchMinutes(s, i).Some?
    ensures i < j < |s| && 1 <= j - i - 1 <= 3 && s[j] == ':'
    ensures forall q :: i < q < j ==> IsDigit(s[q])
    ensures MatchMinutes(s, i) == MatchSeconds(s, i, j)
  {
    j := i + 1 + DigitRun(s, i + 1);
  }

  /** A successful match after the `:` has its seconds' digits up to the `]` or `.` at
      `k`. */
  lemma SecondsShape(s: string, i: nat, j: nat) returns (k: nat)
    requires i < j < |s| && MatchSeconds(s, i, j).Some?
    ensures j < k < |s| && 1 <= k - j - 1 <= 2 && (s[k] == ']' || s[k] == '.')
    ensures forall q :: j < q < k ==> IsDigit(s[q])
    ensures s[k] == ']' ==> MatchSeconds(s, i, j) == Some(TagMatch(i, k + 1, TimeTag(s[i + 1..j], s[j + 1..k], "")))
    ensures s[k] == '.' ==> MatchSeconds(s, i, j) == MatchFraction(s, i, j, k)
  {
    k := j + 1 + DigitRun(s, j + 1);
  }

  /** A successful fraction match ends at the `]` after the fraction's 1-3 digits. */
  lemma FractionShape(s: string, i: nat, j: nat, k: nat) returns (e: nat)
    requires i < j < k < |s| && MatchFraction(s, i, j, k).Some?
    ensures k + 1 < e < |s| && e - k - 1 <= 3 && s[e] == ']'
    ensures forall q :: k < q < e ==> IsDigit(s[q])
    ensures MatchFraction(s, i, j, k) == Some(TagMatch(i, e + 1, TimeTag(s[i + 1..j], s[j + 1..k], s[k + 1..e])))
  {
    e := k + 1 + DigitRun(s, k + 1);
  }

  lemma RendersPlain(s: string, i: nat, j: nat, k: nat)
    requires i < j < k < |s| && s[k] == ']' && s[i] == '[' && s[j] == ':'
    ensures s[i..k + 1] == Render(TimeTag(s[i + 1..j], s[j + 1..k], ""))
  {
    var t := TimeTag(s[i + 1..j], s[j + 1..k], "");
    assert s[k..k + 1] == RenderTail(t.fraction);
    RenderedAt(s, i, t, k + 1);
  }

  lemma RendersWithFraction(s: string, i: nat, j: nat, k: nat, e: nat)
    requires i < j < k && k + 1 < e < |s| && s[k] == '.' && s[e] == ']' && s[i] == '[' && s[j] == ':'
    ensures s[i..e + 1] == Render(TimeTag(s[i + 1..j], s[j + 1..k], s[k + 1..e]))
  {
    var t := TimeTag(s[i + 1..j], s[j + 1..k], s[k + 1..e]);
    SliceSplit(s, k, k + 1, e);
    SliceSplit(s, k, e, e + 1);
    assert s[k..e + 1] == RenderTail(t.fraction);
    RenderedAt(s, i, t, e + 1);
  }

  /** The pieces of tag `t` laid out in `s` from `i`, in the order `[`, minutes, `:`,
      seconds and then `]` or `.`, fraction, `]`; the layout ends before `n`. */
  ghost predicate LaidOut(s: string, i: nat, t: TimeTag, n: nat) {
    var j := i + 1 + |t.minutes|;
    var k := j + 1 + |t.seconds|;
    var e := k + 1 + |t.fraction|;
    && n == (if t.fraction == "" then k + 1 else e + 1) <= |s|
    && s[i] == '[' && s[i + 1..j] == t.minutes && s[j] == ':' && s[j + 1..k] == t.seconds
    && (t.fraction == "" ==> s[k] == ']')
    && (t.fraction != "" ==> s[k] == '.' && s[k + 1..e] == t.fraction && s[e] == ']')
  }

  /** A rendered tag is laid out at the start of the text. */
  lemma RenderLayout(t: TimeTag, rest: string)
    ensures LaidOut(Render(t) + rest, 0, t, |Render(t)|)
  {
    var s := Render(t) + rest;
    var tail := RenderTail(t.fraction);
    var j := 1 + |t.minutes|;
    var k := j + 1 + |t.seconds|;
    var head := "[" + t.minutes + ":" + t.seconds;
    assert |head| == k;
    assert s == head + (tail + rest);
    assert s[..k] == head;
    assert s[0] == '[' && s[1..j] == t.minutes && s[j] == ':' && s[j + 1..k] == t.seconds by {
      assert head[0] == '[' && head[1..j] == t.minutes && head[j] == ':' && head[j + 1..k] == t.seconds;
    }
    assert s[k..k + |tail|] == tail;
    if t.fraction != "" {
      var e := k + 1 + |t.fraction|;
      assert s[k + 1..e] == tail[1..1 + |t.fraction|] == t.fraction;
    }
  }

  /** A slice made of digits is a run of digits in the text. */
  lemma DigitsInText(s: string, a: nat, b: nat)
    requires a <= b <= |s| && AllDigits(s[a..b])
    ensures forall q :: a <= q < b ==> IsDigit(s[q])
  {
    forall q | a <= q < b
      ensures IsDigit(s[q])
    {
      assert s[q] == s[a..b][q - a];
    }
  }

  /** Whatever follows it, a rendered valid tag is matched in full at its start, and the
      match gives back the same tag: rendering and matching are inverse. */
  lemma RenderMatchRoundTrip(t: TimeTag, rest: string)
    requires ValidTag(t)
    ensures MatchAt(Render(t) + rest, 0) == Some(TagMatch(0, |Render(t)|, t))
  {
    RenderLayout(t, rest);
    MatchLaidOut(Render(t) + rest, 0, t, |Render(t)|);
  }

  /** A valid tag laid out at `i` is what the pattern matches there. */
  lemma MatchLaidOut(s: string, i: nat, t: TimeTag, n: nat)
    requires ValidTag(t) && LaidOut(s, i, t, n)
    ensures MatchAt(s, i) == Some(TagMatch(i, n, t))
  {
    var j := i + 1 + |t.minutes|;
    assert s[i] == '[' && j < |s| && s[j] == ':';
    DigitsInText(s, i + 1, j);
    DigitRunExact(s, i + 1, |t.minutes|);
    assert MatchAt(s, i) == MatchMinutes(s, i);
    assert MatchMinutes(s, i) == MatchSeconds(s, i, j);
    MatchLaidOutSeconds(s, i, t, n, j, j + 1 + |t.seconds|);
  }

  lemma MatchLaidOutSeconds(s: string, i: nat, t: TimeTag, n: nat, j: nat, k: nat)
    requires ValidTag(t) && LaidOut(s, i, t, n)
    requires j == i + 1 + |t.minutes| && k == j + 1 + |t.seconds|
    ensures MatchSeconds(s, i, j) == Some(TagMatch(i, n, t))
  {
    DigitsInText(s, j + 1, k);
    DigitRunExact(s, j + 1, |t.seconds|);
    if t.fraction == "" {
      assert s[k] == ']' && n == k + 1;
      assert s[i + 1..j] == t.minutes && s[j + 1..k] == t.seconds;
    } else {
      assert MatchSeconds(s, i, j) == MatchFraction(s, i, j, k);
      MatchLaidOutFraction(s, i, t, n, j, k);
    }
  }

  lemma MatchLaidOutFraction(s: string, i: nat, t: TimeTag, n: nat, j: nat, k: nat)
    requires ValidTag(t) && LaidOut(s, i, t, n) && t.fraction != ""
    requires j == i + 1 + |t.minutes| && k == j + 1 + |t.seconds|
    ensures MatchFraction(s, i, j, k) == Some(TagMatch(i, n, t))
  {
    var e := k + 1 + |t.fraction|;
    DigitsInText(s, k + 1, e);
    DigitRunExact(s, k + 1, |t.fraction|);
  }
  lemma {:induction false} DigitRunExact(s: string, i: nat, n: nat)
    requires i + n < |s|
    requires forall k :: i <= k < i + n ==> IsDigit(s[k])
    requires !IsDigit(s[i + n])
    ensures DigitRun(s, i) == n
    decreases n
  {
    if n > 0 {
      DigitRunExact(s, i + 1, n - 1);
    }
  }

  /** All matches at or after `i`, left to right, resuming after each match
      (`matchAll` with the global flag). */
  function Scan(s: string, i: nat): seq<TagMatch>
    requires i <= |s|
    decreases |s| - i
  {
    if i >= |s| then []
    else
      var r := MatchAt(s, i);
      if r.Some? then [r.value] + Scan(s, r.value.end)
      else Scan(s, i + 1)
  }

  /** The matches lie within the scanned text, left to right, and never overlap. */
  lemma {:induction false} ScanOrdered(s: string, i: nat)
    requires i <= |s|
    ensures forall k :: 0 <= k < |Scan(s, i)| ==> i <= Scan(s, i)[k].start < Scan(s, i)[k].end <= |s|
    ensures forall k :: 0 <= k < |Scan(s, i)| - 1 ==> Scan(s, i)[k].end <= Scan(s, i)[k + 1].start
    decreases |s| - i
  {
    if i < |s| {
      var r := MatchAt(s, i);
      if r.Some? {
        var m := r.value;
        ScanOrdered(s, m.end);
        var ms := Scan(s, m.end);
        var all := [m] + ms;
        assert Scan(s, i) == all;
        forall k | 0 < k < |all|
          ensures all[k] == ms[k - 1]
        {
        }
        if |ms| > 0 {
          assert ms[0].start >= m.end;
        }
      } else {
        ScanOrdered(s, i + 1);
        assert Scan(s, i) == Scan(s, i + 1);
      }
    }
  }

  /** Every reported match is a match of the pattern at its start. */
  lemma {:induction false} ScanSound(s: string, i: nat, k: nat)
    requires i <= |s| && k < |Scan(s, i)|
    ensures MatchAt(s, Scan(s, i)[k].start) == Some(Scan(s, i)[k])
    decreases |s| - i
  {
    var r := MatchAt(s, i);
    if r.Some? {
      if k > 0 {
        ScanSound(s, r.value.end, k - 1);
      }
    } else {
      ScanSound(s, i + 1, k);
    }
  }

  /** The text left after every match is removed (`replace` with the global flag and an
      empty replacement): one pass, so removing a tag may expose another that stays. */
  function Strip(s: string, i: nat): (r: string)
    requires i <= |s|
    ensures |r| <= |s| - i
    decreases |s| - i
  {
    if i >= |s| then []
    else
      match MatchAt(s, i)
      case Some(m) => Strip(s, m.end)
      case None => [s[i]] + Strip(s, i + 1)
  }

  /** Total number of characters covered by the matches. */
  function Covered(ms: seq<TagMatch>): int {
    if |ms| == 0 then 0 else (ms[0].end - ms[0].start) + Covered(ms[1..])
  }

  /** No match is skipped: every position where the pattern matches is reported, because
      no match can begin inside another (only the first character of a match is `[`). */
  lemma {:induction false} ScanComplete(s: string, i: nat, p: nat) returns (k: nat)
    requires i <= p <= |s| && MatchAt(s, p).Some?
    ensures k < |Scan(s, i)| && Scan(s, i)[k].start == p
    decreases |s| - i, 1
  {
    if MatchAt(s, i).Some? {
      k := ScanCompleteAfterMatch(s, i, p);
    } else {
      k := ScanCompleteAfterSkip(s, i, p);
    }
  }

  /** A match at `i` is reported first; a later one lies at or after its end. */
  lemma {:induction false} ScanCompleteAfterMatch(s: string, i: nat, p: nat) returns (k: nat)
    requires i <= p <= |s| && MatchAt(s, p).Some? && MatchAt(s, i).Some?
    ensures k < |Scan(s, i)| && Scan(s, i)[k].start == p
    decreases |s| - i, 0
  {
    var m := MatchAt(s, i).value;
    var rest := Scan(s, m.end);
    ScanAfterMatch(s, i);
    if p == i {
      k := 0;
    } else {
      MatchEndsBefore(s, i, p);
      var k' := ScanComplete(s, m.end, p);
      k := k' + 1;
      assert ([m] + rest)[k] == rest[k'];
    }
  }

  /** A match at `i` is reported first, and the scan resumes at its end. */
  lemma ScanAfterMatch(s: string, i: nat)
    requires MatchAt(s, i).Some?
    ensures Scan(s, i) == [MatchAt(s, i).value] + Scan(s, MatchAt(s, i).value.end)
  {
  }

  /** A match never contains the start of another: a later match begins at or after its
      end, because only its first character is `[`. */
  lemma MatchEndsBefore(s: string, i: nat, p: nat)
    requires i < p && MatchAt(s, i).Some? && MatchAt(s, p).Some?
    ensures MatchAt(s, i).value.end <= p
  {
    assert s[p] == '[';
  }

  /** Without a match at `i`, the scan resumes at `i + 1`, which is at most `p`. */
  lemma {:induction false} ScanCompleteAfterSkip(s: string, i: nat, p: nat) returns (k: nat)
    requires i <= p <= |s| && MatchAt(s, p).Some? && MatchAt(s, i).None?
    ensures k < |Scan(s, i)| && Scan(s, i)[k].start == p
    decreases |s| - i, 0
  {
    assert Scan(s, i) == Scan(s, i + 1);
    k := ScanComplete(s, i + 1, p);
  }

  /** The scan reports a match at `p` exactly when the pattern matches at `p`. */
  lemma ScanFindsEveryMatch(s: string, i: nat, p: nat)
    requires i <= |s|
    ensures (exists k :: 0 <= k < |Scan(s, i)| && Scan(s, i)[k].start == p)
        <==> (i <= p && MatchAt(s, p).Some?)
  {
    if exists k :: 0 <= k < |Scan(s, i)| && Scan(s, i)[k].start == p {
      var k :| 0 <= k < |Scan(s, i)| && Scan(s, i)[k].start == p;
      ScanSound(s, i, k);
      ScanOrdered(s, i);
    }
    if i <= p && MatchAt(s, p).Some? {
      var k := ScanComplete(s, i, p);
    }
  }

  /** Removing the matches removes exactly the characters they cover. */
  lemma {:induction false} StripLength(s: string, i: nat)
    requires i <= |s|
    ensures |Strip(s, i)| + Covered(Scan(s, i)) == |s| - i
    decreases |s| - i
  {
    if i < |s| {
      match MatchAt(s, i)
      case Some(m) =>
        StripLength(s, m.end);
        assert Strip(s, i) == Strip(s, m.end);
        assert Scan(s, i) == [m] + Scan(s, m.end);
        assert Scan(s, i)[1..] == Scan(s, m.end);
      case None =>
        StripLength(s, i + 1);
        assert Strip(s, i) == [s[i]] + Strip(s, i + 1);
        assert Scan(s, i) == Scan(s, i + 1);
    }
  }

  /** Where the pattern never matches, nothing is removed. */
  lemma {:induction false} StripWithoutMatches(s: string, i: nat)
    requires i <= |s|
    requires Scan(s, i) == []
    ensures Strip(s, i) == s[i..]
    decreases |s| - i
  {
    if i < |s| {
      assert MatchAt(s, i).None?;
      StripWithoutMatches(s, i + 1);
      assert s[i..] == [s[i]] + s[i + 1..];
    }
  }
}

=== FILE: lrc_strip.dfy ===
/** What `replace` with the global timestamp pattern and an empty replacement leaves of
    a line, described by the bounds of the matches `matchAll` reports rather than by the
    scan that removes them. */
module LrcStrip {
  import opened LrcScan

  /** `ms` lies left to right, without overlap, between `i` and `n`. */
  predicate Laid(i: nat, ms: seq<TagMatch>, n: nat)
    decreases |ms|
  {
    if |ms| == 0 then i <= n
    else i <= ms[0].start <= ms[0].end <= n && Laid(ms[0].end, ms[1..], n)
  }

  /** The text between the matches, read from their bounds alone:
      `s[i..m0.start] + s[m0.end..m1.start] + ... + s[mk.end..]`. */
  function Gaps(s: string, i: nat, ms: seq<TagMatch>): string
    requires Laid(i, ms, |s|)
    decreases |ms|
  {
    if |ms| == 0 then s[i..] else s[i..ms[0].start] + Gaps(s, ms[0].end, ms[1..])
  }

  /** A gap that starts one character earlier begins with that character. */
  lemma GapsCons(s: string, i: nat, ms: seq<TagMatch>)
    requires i < |s| && Laid(i + 1, ms, |s|)
    ensures Laid(i, ms, |s|)
    ensures Gaps(s, i, ms) == [s[i]] + Gaps(s, i + 1, ms)
  {
    if |ms| == 0 {
      assert s[i..] == [s[i]] + s[i + 1..];
    } else {
      var m := ms[0];
      var rest := Gaps(s, m.end, ms[1..]);
      assert Gaps(s, i + 1, ms) == s[i + 1..m.start] + rest;
      assert s[i..m.start] == [s[i]] + s[i + 1..m.start];
      assert Gaps(s, i, ms) == s[i..m.start] + rest;
    }
  }

  /** Removing the matches keeps exactly the characters outside them, in order. */
  lemma {:induction false} StripGaps(s: string, i: nat)
    requires i <= |s|
    ensures Laid(i, Scan(s, i), |s|)
    ensures Strip(s, i) == Gaps(s, i, Scan(s, i))
    decreases |s| - i
  {
    if i < |s| {
      match MatchAt(s, i)
      case Some(m) =>
        StripGaps(s, m.end);
        var ms := Scan(s, m.end);
        assert Scan(s, i) == [m] + ms;
        assert ([m] + ms)[1..] == ms;
        assert Laid(i, [m] + ms, |s|);
        assert Gaps(s, i, [m] + ms) == s[i..i] + Gaps(s, m.end, ms);
        assert Strip(s, i) == Strip(s, m.end);
      case None =>
        StripGaps(s, i + 1);
        assert Scan(s, i) == Scan(s, i + 1);
        assert Strip(s, i) == [s[i]] + Strip(s, i + 1);
        GapsCons(s, i, Scan(s, i + 1));
    }
  }
}

=== FILE: lrc_tags.dfy ===
/** Rendered timestamps anywhere in a line: the rendering of a valid tag is matched in
    full wherever it stands, so a line that starts with several tags yields one match per
    tag, in order. */
module LrcTags {
  import opened Common
  import opened LrcScan

  /** A layout found in the suffix of `s` from `i` is a layout in `s` at `i`. */
  lemma LayoutShift(s: string, i: nat, t: TimeTag, n: nat)
    requires i <= |s| && LaidOut(s[i..], 0, t, n)
    ensures LaidOut(s, i, t, i + n)
  {
    var u := s[i..];
    forall a, b | 0 <= a <= b <= |u|
      ensures s[i + a..i + b] == u[a..b]
    {
    }
    var j := 1 + |t.minutes|;
    var k := j + 1 + |t.seconds|;
    assert s[i] == u[0] && s[i + j] == u[j] && s[i + k] == u[k];
    assert s[i + 1..i + j] == u[1..j] && s[i + j + 1..i + k] == u[j + 1..k];
    if t.fraction != "" {
      var e := k + 1 + |t.fraction|;
      assert s[i + k + 1..i + e] == u[k + 1..e] && s[i + e] == u[e];
    }
  }

  /** Wherever it stands in a text, a rendered valid tag is matched in full at its
      position and gives back the same tag, whatever precedes or follows it. */
  lemma RenderMatchAfter(pre: string, t: TimeTag, rest: string)
    requires ValidTag(t)
    ensures MatchAt(pre + Render(t) + rest, |pre|) == Some(TagMatch(|pre|, |pre| + |Render(t)|, t))
  {
    var s := pre + Render(t) + rest;
    assert s[|pre|..|pre| + |Render(t)|] == Render(t);
    MatchRendered(s, |pre|, t);
  }

  /** A valid tag's rendering found at `i` is the match at `i`. */
  lemma MatchRendered(s: string, i: nat, t: TimeTag)
    requires ValidTag(t) && i + |Render(t)| <= |s| && s[i..i + |Render(t)|] == Render(t)
    ensures MatchAt(s, i) == Some(TagMatch(i, i + |Render(t)|, t))
  {
    RenderedLayout(s, i, t);
    MatchLaidOut(s, i, t, i + |Render(t)|);
  }

  /** A tag's rendering found at `i` lays the tag out there. */
  lemma RenderedLayout(s: string, i: nat, t: TimeTag)
    requires i + |Render(t)| <= |s| && s[i..i + |Render(t)|] == Render(t)
    ensures LaidOut(s, i, t, i + |Render(t)|)
  {
    var n := |Render(t)|;
    var after := s[i + n..];
    assert s[i..] == Render(t) + after;
    RenderLayout(t, after);
    LayoutShift(s, i, t, n);
  }

  /** A text with no `[` holds no timestamp, and removing timestamps leaves it as is. */
  lemma {:induction false} NoBracketNoTags(s: string, i: nat)
    requires i <= |s|
    requires forall p :: i <= p < |s| ==> s[p] != '['
    ensures Scan(s, i) == [] && Strip(s, i) == s[i..]
    decreases |s| - i
  {
    if i < |s| {
      NoBracketNoTags(s, i + 1);
      assert s[i..] == [s[i]] + s[i + 1..];
    }
  }

  /** The scan of a line made of two rendered valid tags and then text without `[`:
      both tags are reported, in order, and only the text survives the removal. */
  lemma TwoTagScan(s: string, t1: TimeTag, t2: TimeTag, text: string)
    requires ValidTag(t1) && ValidTag(t2)
    requires forall p :: 0 <= p < |text| ==> text[p] != '['
    requires s == Render(t1) + Render(t2) + text
    ensures var a := |Render(t1)|;
            && Scan(s, 0) == [TagMatch(0, a, t1), TagMatch(a, a + |Render(t2)|, t2)]
            && Strip(s, 0) == text
  {
    var a := |Render(t1)|;
    var b := a + |Render(t2)|;
    assert s[0..a] == Render(t1) && s[a..b] == Render(t2) && s[b..] == text;
    forall p | b <= p < |s|
      ensures s[p] != '['
    {
      assert s[p] == text[p - b];
    }
    TwoTagsAt(s, a, b, t1, t2);
  }

  /** Two rendered valid tags side by side at the start of a text, and no `[` after
      them: the scan reports both, in order, and the removal keeps the rest. */
  lemma TwoTagsAt(s: string, a: nat, b: nat, t1: TimeTag, t2: TimeTag)
    requires ValidTag(t1) && ValidTag(t2)
    requires a == |Render(t1)| && b == a + |Render(t2)| <= |s|
    requires s[0..a] == Render(t1) && s[a..b] == Render(t2)
    requires forall p :: b <= p < |s| ==> s[p] != '['
    ensures Scan(s, 0) == [TagMatch(0, a, t1), TagMatch(a, b, t2)] && Strip(s, 0) == s[b..]
  {
    LastTagAt(s, a, b, t2);
    MatchRendered(s, 0, t1);
    MatchThenScan(s, 0, TagMatch(0, a, t1));
  }

  /** A rendered valid tag at `a` with no `[` after it is the only match from `a` on. */
  lemma LastTagAt(s: string, a: nat, b: nat, t: TimeTag)
    requires ValidTag(t) && b == a + |Render(t)| <= |s| && s[a..b] == Render(t)
    requires forall p :: b <= p < |s| ==> s[p] != '['
    ensures Scan(s, a) == [TagMatch(a, b, t)] && Strip(s, a) == s[b..]
  {
    MatchRendered(s, a, t);
    NoBracketNoTags(s, b);
    MatchThenScan(s, a, TagMatch(a, b, t));
  }

  /** A match at `i` is reported first, then the scan and the removal resume at its
      end. */
  lemma MatchThenScan(s: string, i: nat, m: TagMatch)
    requires MatchAt(s, i) == Some(m)
    ensures Scan(s, i) == [m] + Scan(s, m.end) && Strip(s, i) == Strip(s, m.end)
  {
  }
}

=== FILE: lrc_text.dfy ===
/** The string primitives the LRC parser relies on, with JavaScript's semantics:
    `String.prototype.split` on one character, `String.prototype.trim`, and the
    CJK test `/[\u4e00-\u9fa5]/`. */
module LrcText {

  /** Splits `s` at every occurrence of `sep`; like JavaScript's `split`, an empty string
      yields one empty piece and a trailing separator yields a trailing empty piece. */
  function Split(s: string, sep: char): (r: seq<string>)
    ensures |r| >= 1
    ensures forall k :: 0 <= k < |r| ==> sep !in r[k]
    decreases |s|
  {
    if |s| == 0 then [""]
    else
      var rest := Split(s[1..], sep);
      if s[0] == sep then [""] + rest
      else [[s[0]] + rest[0]] + rest[1..]
  }

  /** Joins pieces with `sep` between them (JavaScript's `join`). */
  function Join(parts: seq<string>, sep: char): string
    requires |parts| >= 1
    decreases |parts|
  {
    if |parts| == 1 then parts[0] else parts[0] + [sep] + Join(parts[1..], sep)
  }

  /** Joining the pieces of a split gives back the original text. */
  lemma {:induction false} JoinSplit(s: string, sep: char)
    ensures Join(Split(s, sep), sep) == s
    decreases |s|
  {
    if |s| > 0 {
      var rest := Split(s[1..], sep);
      JoinSplit(s[1..], sep);
      if s[0] == sep {
        assert Split(s, sep) == [""] + rest;
        assert ([""] + rest)[1..] == rest;
      } else {
        var r := [[s[0]] + rest[0]] + rest[1..];
        if |rest| == 1 {
          assert Join(r, sep) == [s[0]] + rest[0];
        } else {
          assert r[1..] == rest[1..];
          assert Join(r, sep) == [s[0]] + rest[0] + [sep] + Join(rest[1..], sep);
        }
      }
    }
  }

  /** Splitting a join of separator-free pieces gives back the pieces. */
  lemma {:induction false} SplitJoin(parts: seq<string>, sep: char)
    requires |parts| >= 1
    requires forall k :: 0 <= k < |parts| ==> sep !in parts[k]
    ensures Split(Join(parts, sep), sep) == parts
    decreases |parts|, |parts[0]|
  {
    var p := parts[0];
    if |p| == 0 {
      if |parts| > 1 {
        var tail := Join(parts[1..], sep);
        assert Join(parts, sep) == [sep] + tail;
        SplitJoin(parts[1..], sep);
        assert ([sep] + tail)[1..] == tail;
        assert parts == [""] + parts[1..];
      }
    } else {
      var parts' := [p[1..]] + parts[1..];
      assert parts'[1..] == parts[1..];
      assert Join(parts, sep) == [p[0]] + Join(parts', sep) by {
        if |parts| > 1 {
          assert Join(parts, sep) == p + [sep] + Join(parts[1..], sep);
          assert Join(parts', sep) == p[1..] + [sep] + Join(parts[1..], sep);
          assert p == [p[0]] + p[1..];
        } else {
          assert p == [p[0]] + p[1..];
        }
      }
      assert p[0] in p;
      forall k | 0 <= k < |parts'|
        ensures sep !in parts'[k]
      {
        if k == 0 {
          assert forall c :: c in p[1..] ==> c in p;
        } else {
          assert parts'[k] == parts[k];
        }
      }
      SplitJoin(parts', sep);
      var j := Join(parts, sep);
      assert j[1..] == Join(parts', sep);
      assert p == [p[0]] + p[1..];
    }
  }

  /** Joining two lists of pieces puts one separator between their joins. */
  lemma {:induction false} JoinConcat(p: seq<string>, q: seq<string>, sep: char)
    requires |p| >= 1 && |q| >= 1
    ensures Join(p + q, sep) == Join(p, sep) + [sep] + Join(q, sep)
    decreases |p|
  {
    if |p| > 1 {
      JoinConcat(p[1..], q, sep);
      assert (p + q)[1..] == p[1..] + q;
    } else {
      assert (p + q)[1..] == q;
    }
  }

  /** The characters JavaScript's `trim` removes: the `WhiteSpace` and `LineTerminator`
      code points of section 12.2 and 12.3 of ECMA-262. */
  predicate IsJsWhitespace(c: char) {
    || c == ' ' || c == '\t' || c == '\n' || c == '\r' || c == '\U{000B}' || c == '\U{000C}'
    || c == '\U{00A0}' || c == '\U{1680}' || ('\U{2000}' <= c <= '\U{200A}')
    || c == '\U{2028}' || c == '\U{2029}' || c == '\U{202F}' || c == '\U{205F}'
    || c == '\U{3000}' || c == '\U{FEFF}'
  }

  /** The first index at or after `i` that does not hold whitespace (or `|s|`). */
  function SkipBlanks(s: string, i: nat): (k: nat)
    requires i <= |s|
    ensures i <= k <= |s|
    ensures forall j :: i <= j < k ==> IsJsWhitespace(s[j])
    ensures k == |s| || !IsJsWhitespace(s[k])
    decreases |s| - i
  {
    if i < |s| && IsJsWhitespace(s[i]) then SkipBlanks(s, i + 1) else i
  }

  /** The end of `s[lo..j]` once trailing whitespace is dropped. */
  function SkipBlanksBack(s: string, lo: nat, j: nat): (e: nat)
    requires lo <= j <= |s|
    ensures lo <= e <= j
    ensures forall m :: e <= m < j ==> IsJsWhitespace(s[m])
    ensures e == lo || !IsJsWhitespace(s[e - 1])
    decreases j
  {
    if j > lo && IsJsWhitespace(s[j - 1]) then SkipBlanksBack(s, lo, j - 1) else j
  }

  /** JavaScript's `trim`: the slice of `s` left once the whitespace at both ends is
      dropped. Everything dropped is whitespace and the kept text neither starts nor ends
      with whitespace. */
  function Trim(s: string): (r: string)
    ensures |r| == 0 || (!IsJsWhitespace(r[0]) && !IsJsWhitespace(r[|r| - 1]))
    ensures SkipBlanks(s, 0) + |r| <= |s|
    ensures r == s[SkipBlanks(s, 0)..SkipBlanks(s, 0) + |r|]
    ensures forall k :: 0 <= k < SkipBlanks(s, 0) ==> IsJsWhitespace(s[k])
    ensures forall k :: SkipBlanks(s, 0) + |r| <= k < |s| ==> IsJsWhitespace(s[k])
  {
    var a := SkipBlanks(s, 0);
    s[a..SkipBlanksBack(s, a, |s|)]
  }

  /** A text with no whitespace at either end is its own trim; in particular trimming is
      idempotent. */
  lemma TrimFixedPoint(s: string)
    requires |s| == 0 || (!IsJsWhitespace(s[0]) && !IsJsWhitespace(s[|s| - 1]))
    ensures Trim(s) == s
  {
  }

  lemma TrimIdempotent(s: string)
    ensures Trim(Trim(s)) == Trim(s)
  {
    TrimFixedPoint(Trim(s));
  }

  /** A text trims to the empty string exactly when it is all whitespace. */
  lemma TrimEmptyIffBlank(s: string)
    ensures Trim(s) == "" <==> forall k :: 0 <= k < |s| ==> IsJsWhitespace(s[k])
  {
  }

  /** A character of the CJK Unified Ideographs block from U+4E00 to U+9FA5, the class
      `[一-龥]`. */
  predicate IsChineseChar(c: char) {
    '\U{4E00}' <= c <= '\U{9FA5}'
  }

  /** `/[\u4e00-\u9fa5]/.test(s)`: some character of `s` is in the class. */
  predicate HasChinese(s: string) {
    exists k :: 0 <= k < |s| && IsChineseChar(s[k])
  }

  /** A concatenation contains a CJK character exactly when one of its parts does. */
  lemma HasChineseConcat(a: string, b: string)
    ensures HasChinese(a + b) <==> HasChinese(a) || HasChinese(b)
  {
    if HasChinese(a + b) {
      var k :| 0 <= k < |a + b| && IsChineseChar((a + b)[k]);
      if k >= |a| {
        assert b[k - |a|] == (a + b)[k];
      }
    }
    if HasChinese(a) {
      var k :| 0 <= k < |a| && IsChineseChar(a[k]);
      assert (a + b)[k] == a[k];
    }
    if HasChinese(b) {
      var k :| 0 <= k < |b| && IsChineseChar(b[k]);
      assert (a + b)[|a| + k] == b[k];
    }
  }
}

=== FILE: models.dfy ===
/** The six tables of the backend (`profiles`, `asset`, `files`, `audit_logs`,
    `blueprints`, `tempop`), their column defaults, and the key and foreign-key
    constraints the database enforces on them. */
module Models {
  import opened Common

  /** A UUID primary key, kept as its text form. */
  type Uuid = string

  /** A naive local `datetime`, as microseconds since a fixed midnight. */
  type Timestamp = nat

  /** A formal operator's profile. */
  datatype Profile = Profile(
    id: Uuid,
    code: Option<string>,
    avatarUrl: Option<string>,
    role: string,
    department: Option<string>,
    email: Option<string>,
    gender: Option<string>,
    age: Option<int>,
    address: Option<string>,
    bio: Option<string>,
    createdAt: Timestamp)

  /** An industrial asset; `kind` is the `type` column. */
  datatype Asset = Asset(
    id: int,
    name: string,
    code: string,
    kind: string,
    status: string,
    location: Option<string>)

  /** The metadata of an uploaded file. The id is optional because a record submitted by a
      client usually has none until the database assigns it. */
  datatype File = File(
    id: Option<int>,
    assetId: Option<int>,
    uploaderId: Option<Uuid>,
    filename: string,
    r2Key: string,
    url: Option<string>,
    size: Option<int>,
    mimeType: Option<string>,
    createdAt: Timestamp,
    artist: Option<string>,
    coverR2Key: Option<string>,
    lyricsR2Key: Option<string>)

  datatype AuditLog = AuditLog(
    id: int,
    operatorId: Option<Uuid>,
    action: string,
    target: Option<string>,
    ipAddress: Option<string>,
    createdAt: Timestamp)

  /** A JSON value, for the `data` column of a blueprint. */
  datatype Json =
    | JNull
    | JBool(b: bool)
    | JNumber(n: int)
    | JString(str: string)
    | JArray(items: seq<Json>)
    | JObject(fields: seq<(string, Json)>)

  datatype Blueprint = Blueprint(
    id: int,
    createdBy: Option<Uuid>,
    name: string,
    version: string,
    isPublic: bool,
    data: Json,
    createdAt: Timestamp,
    updatedAt: Timestamp)

  /** An applicant waiting for approval. Unlike a profile, its code is required. */
  datatype Tempop = Tempop(
    id: Uuid,
    email: Option<string>,
    code: string,
    avatarUrl: Option<string>,
    gender: Option<string>,
    age: Option<int>,
    address: Option<string>,
    bio: Option<string>,
    status: string,
    appliedAt: Timestamp)

  datatype Db = Db(
    profiles: seq<Profile>,
    assets: seq<Asset>,
    files: seq<File>,
    auditLogs: seq<AuditLog>,
    blueprints: seq<Blueprint>,
    tempops: seq<Tempop>)

  // ---------------------------------------------------------------- defaults

  /** A profile with only its key given: role `operator`, every optional column empty,
      created now. */
  function NewProfile(id: Uuid, now: Timestamp): (p: Profile)
    ensures p.id == id && p.role == "operator" && p.createdAt == now
    ensures p.code.None? && p.avatarUrl.None? && p.department.None? && p.email.None?
    ensures p.gender.None? && p.age.None? && p.address.None? && p.bio.None?
  {
    Profile(id, None, None, "operator", None, None, None, None, None, None, now)
  }

  /** An asset with only its required columns given: status `active`, no location. */
  function NewAsset(id: int, name: string, code: string, kind: string): (a: Asset)
    ensures a.id == id && a.name == name && a.code == code && a.kind == kind
    ensures a.status == "active" && a.location.None?
  {
    Asset(id, name, code, kind, "active", None)
  }

  /** A blueprint with only its name given: version `v1.0`, private, an empty JSON object
      as data, no creator. Each timestamp has its own clock read, so the two reads are
      separate parameters. */
  function NewBlueprint(id: int, name: string, createdNow: Timestamp, updatedNow: Timestamp): (b: Blueprint)
    ensures b.id == id && b.name == name && b.createdBy.None?
    ensures b.version == "v1.0" && !b.isPublic && b.data == JObject([])
    ensures b.createdAt == createdNow && b.updatedAt == updatedNow
  {
    Blueprint(id, None, name, "v1.0", false, JObject([]), createdNow, updatedNow)
  }

  /** An applicant with only its required columns given: status `pending`. */
  function NewTempop(id: Uuid, code: string, now: Timestamp): (t: Tempop)
    ensures t.id == id && t.code == code && t.status == "pending" && t.appliedAt == now
    ensures t.email.None? && t.avatarUrl.None? && t.gender.None? && t.age.None?
    ensures t.address.None? && t.bio.None?
  {
    Tempop(id, None, code, None, None, None, None, None, "pending", now)
  }

  /** A file whose mime type starts with `audio/`: Python's `startswith('audio/')` on a
      non-empty value and SQL's `LIKE 'audio/%'` on a non-null one both say this. */
  predicate IsAudio(f: File) {
    f.mimeType.Some? && StartsWith(f.mimeType.value, "audio/")
  }

  // ---------------------------------------------------------------- keys

  function ProfileId(p: Profile): Uuid { p.id }
  function TempopId(t: Tempop): Uuid { t.id }
  function AssetId(a: Asset): int { a.id }
  function AssetCode(a: Asset): string { a.code }
  function FileId(f: File): Option<int> { f.id }
  function AuditLogId(l: AuditLog): int { l.id }
  function BlueprintId(b: Blueprint): int { b.id }

  function ProfileIds(db: Db): set<Uuid> { Keys(db.profiles, ProfileId) }
  function TempopIds(db: Db): set<Uuid> { Keys(db.tempops, TempopId) }
  function AssetIds(db: Db): set<int> { Keys(db.assets, AssetId) }
  function AssetCodes(db: Db): set<string> { Keys(db.assets, AssetCode) }
  function FileIds(db: Db): set<Option<int>> { Keys(db.files, FileId) }

  /** Every primary key is unique within its table, stored files have an id, and asset
      codes are unique. */
  ghost predicate KeysHold(db: Db) {
    && UniqueKeys(db.profiles, ProfileId)
    && UniqueKeys(db.tempops, TempopId)
    && UniqueKeys(db.assets, AssetId)
    && UniqueKeys(db.assets, AssetCode)
    && UniqueKeys(db.files, FileId)
    && (forall i :: 0 <= i < |db.files| ==> db.files[i].id.Some?)
    && UniqueKeys(db.auditLogs, AuditLogId)
    && UniqueKeys(db.blueprints, BlueprintId)
  }

  /** A file's asset, a log's operator and a blueprint's creator exist when set. A file's
      uploader is not a foreign key and may name anyone. */
  ghost predicate ForeignKeysHold(db: Db) {
    && (forall i :: 0 <= i < |db.files| && db.files[i].assetId.Some? ==>
          db.files[i].assetId.value in AssetIds(db))
    && (forall i :: 0 <= i < |db.auditLogs| && db.auditLogs[i].operatorId.Some? ==>
          db.auditLogs[i].operatorId.value in ProfileIds(db))
    && (forall i :: 0 <= i < |db.blueprints| && db.blueprints[i].createdBy.Some? ==>
          db.blueprints[i].createdBy.value in ProfileIds(db))
  }

  /** A state the database can be in. */
  ghost predicate WellFormed(db: Db) {
    KeysHold(db) && ForeignKeysHold(db)
  }

  /** The uploader column has no foreign key: whatever uploader a stored file is given,
      a profile id or not, the database stays well formed. */
  lemma UploaderIsNotAForeignKey(db: Db, i: nat, u: Option<Uuid>)
    requires WellFormed(db) && i < |db.files|
    ensures WellFormed(db.(files := db.files[i := db.files[i].(uploaderId := u)]))
  {
    var db' := db.(files := db.files[i := db.files[i].(uploaderId := u)]);
    assert forall j :: 0 <= j < |db.files| ==>
      db'.files[j].id == db.files[j].id && db'.files[j].assetId == db.files[j].assetId;
  }

  /** Inserting an asset, as the database does it: the insert fails when the id or the
      code is already taken, because of the primary key and the `UNIQUE` code column. */
  function AddAsset(db: Db, a: Asset): (r: Option<Db>)
    ensures r.Some? <==> a.id !in AssetIds(db) && a.code !in AssetCodes(db)
    ensures r.Some? ==> r.value == db.(assets := db.assets + [a])
  {
    if a.id in AssetIds(db) || a.code in AssetCodes(db) then None
    else Some(db.(assets := db.assets + [a]))
  }

  /** An insert that succeeds keeps the database well formed, so no two assets ever
      share a code. */
  lemma AddAssetWellFormed(db: Db, a: Asset)
    requires WellFormed(db) && AddAsset(db, a).Some?
    ensures WellFormed(AddAsset(db, a).value)
    ensures AssetCodes(AddAsset(db, a).value) == AssetCodes(db) + {a.code}
  {
    var db' := AddAsset(db, a).value;
    PutUnique(db.assets, AssetId, a);
    PutUnique(db.assets, AssetCode, a);
    assert Put(db.assets, AssetId, a) == db'.assets;
    assert Put(db.assets, AssetCode, a) == db'.assets;
    assert AssetIds(db) <= AssetIds(db') by {
      forall i | 0 <= i < |db.assets|
        ensures db.assets[i].id in AssetIds(db')
      {
        assert db'.assets[i] == db.assets[i];
      }
    }
  }
}

=== FILE: player.dfy ===
/** The background-music player shared by the pages: which track is loaded, whether it
    plays, and a volume that nothing changes. */
module Player {
  import opened Common

  const DefaultBgm: string := "/audio/storyteller.mp3"
  const DefaultVolume: real := 0.4

  /** `track` is `None` when the shared state holds `null`. */
  datatype PlayerState = PlayerState(track: Option<string>, playing: bool, volume: real)

  /** The state before any action: the default track, paused, at volume 0.4. */
  function Initial(): (s: PlayerState)
    ensures s.track == Some(DefaultBgm) && !s.playing && s.volume == DefaultVolume
  {
    PlayerState(Some(DefaultBgm), false, DefaultVolume)
  }

  /** `play(url)`: the loaded track pauses or resumes; another track is loaded and
      plays. */
  function Play(s: PlayerState, url: string): (r: PlayerState)
    ensures s.track == Some(url) ==> r == s.(playing := !s.playing)
    ensures s.track != Some(url) ==> r.track == Some(url) && r.playing
    ensures r.volume == s.volume
  {
    if s.track == Some(url) then s.(playing := !s.playing)
    else s.(track := Some(url), playing := true)
  }

  /** `toggle`: pauses or resumes, nothing else. */
  function Toggle(s: PlayerState): (r: PlayerState)
    ensures r.track == s.track && r.volume == s.volume && r.playing != s.playing
  {
    s.(playing := !s.playing)
  }

  /** `resetPlayer`: back to the default track, paused. */
  function Reset(s: PlayerState): (r: PlayerState)
    ensures r.track == Some(DefaultBgm) && !r.playing && r.volume == s.volume
  {
    s.(track := Some(DefaultBgm), playing := false)
  }

  /** `initBGM`: the default track, playing, whatever played before. */
  function InitBgm(s: PlayerState): (r: PlayerState)
    ensures r.track == Some(DefaultBgm) && r.playing && r.volume == s.volume
  {
    s.(track := Some(DefaultBgm), playing := true)
  }

  /** The actions a page can take. */
  datatype Action = PlayAction(url: string) | ToggleAction | ResetAction | InitBgmAction

  function Step(s: PlayerState, a: Action): PlayerState {
    match a
    case PlayAction(url) => Play(s, url)
    case ToggleAction => Toggle(s)
    case ResetAction => Reset(s)
    case InitBgmAction => InitBgm(s)
  }

  function Run(s: PlayerState, actions: seq<Action>): PlayerState
    decreases |actions|
  {
    if |actions| == 0 then s else Run(Step(s, actions[0]), actions[1..])
  }

  /** No sequence of actions changes the volume. */
  lemma {:induction false} VolumeNeverChanges(s: PlayerState, actions: seq<Action>)
    ensures Run(s, actions).volume == s.volume
    decreases |actions|
  {
    if |actions| > 0 {
      VolumeNeverChanges(Step(s, actions[0]), actions[1..]);
    }
  }

  /** Toggling twice, or playing the loaded track twice, restores the state. */
  lemma ToggleTwice(s: PlayerState)
    ensures Toggle(Toggle(s)) == s
  {
  }

  lemma PlaySameTwice(s: PlayerState, url: string)
    requires s.track == Some(url)
    ensures Play(Play(s, url), url) == s
  {
  }

  /** Playing a new track and then the same one again pauses it. */
  lemma PlayNewThenSame(s: PlayerState, url: string)
    requires s.track != Some(url)
    ensures Play(Play(s, url), url) == s.(track := Some(url), playing := false)
  {
  }

  /** Reset and initBGM forget the past: from any two states they lead to the same state
      (at equal volume). */
  lemma ResetForgets(s1: PlayerState, s2: PlayerState)
    requires s1.volume == s2.volume
    ensures Reset(s1) == Reset(s2) && InitBgm(s1) == InitBgm(s2)
  {
  }

  /** A reset from the start state leaves it as it was. */
  lemma ResetOfInitial()
    ensures Reset(Initial()) == Initial()
  {
  }
}

=== FILE: route_guard.dfy ===
/** The global route middleware: the login page is only for visitors who are logged out,
    and every other page only for those logged in. */
module RouteGuard {

  const LoginPath: string := "/login"
  const HomePath: string := "/"

  /** What the middleware does with a navigation. */
  datatype Decision = Allow | Redirect(to: string)

  /** The decision for a navigation to `path`, given whether a user is logged in. */
  function Guard(path: string, loggedIn: bool): (d: Decision)
    ensures path == LoginPath && loggedIn ==> d == Redirect(HomePath)
    ensures path == LoginPath && !loggedIn ==> d == Allow
    ensures path != LoginPath && !loggedIn ==> d == Redirect(LoginPath)
    ensures path != LoginPath && loggedIn ==> d == Allow
  {
    if path == LoginPath then
      if loggedIn then Redirect(HomePath) else Allow
    else if !loggedIn then Redirect(LoginPath)
    else Allow
  }

  /** A redirect never leads to another redirect in the same login state: there is no
      redirect loop. */
  lemma NoRedirectLoop(path: string, loggedIn: bool)
    ensures Guard(path, loggedIn).Redirect? ==> Guard(Guard(path, loggedIn).to, loggedIn) == Allow
  {
    assert HomePath != LoginPath;
  }

  /** A page is allowed exactly when the login state matches it: logged out for the login
      page, logged in for every other page. */
  lemma AllowedIff(path: string, loggedIn: bool)
    ensures Guard(path, loggedIn) == Allow <==> (path == LoginPath <==> !loggedIn)
  {
  }
}

=== FILE: sorting.dfy ===
/** A stable sort by an integer key. It stands for JavaScript's `Array.prototype.sort`
    with a numeric comparator (stable since ES2019) and for SQL `ORDER BY`; a descending
    order is an ascending sort on the negated key. */
module Sorting {

  /** `s` is in ascending order of `key`. */
  ghost predicate SortedBy<T>(s: seq<T>, key: T -> int) {
    forall i, j :: 0 <= i < j < |s| ==> key(s[i]) <= key(s[j])
  }

  /** The elements of `s` whose key is `k`, in their order in `s`. A sort is stable when it
      keeps every one of these sub-sequences unchanged. */
  function WithKey<T>(s: seq<T>, key: T -> int, k: int): (r: seq<T>)
    ensures |r| <= |s|
  {
    if |s| == 0 then []
    else if key(s[|s| - 1]) == k then WithKey(s[..|s| - 1], key, k) + [s[|s| - 1]]
    else WithKey(s[..|s| - 1], key, k)
  }

  /** Inserts `x` into the sorted `s` after every element whose key is at most `x`'s, so
      that elements with equal keys keep their order of arrival. */
  function Insert<T>(s: seq<T>, x: T, key: T -> int): (r: seq<T>)
    requires SortedBy(s, key)
    ensures SortedBy(r, key)
    ensures multiset(r) == multiset(s) + multiset{x}
    ensures |r| == |s| + 1
    decreases |s|
  {
    if |s| == 0 then [x]
    else if key(s[|s| - 1]) <= key(x) then
      SortedAppend(s, x, key);
      s + [x]
    else
      var init := s[..|s| - 1];
      var last := s[|s| - 1];
      assert s == init + [last];
      var ins := Insert(init, x, key);
      BoundedByMultiset(ins, multiset(init) + multiset{x}, key, key(last));
      SortedAppend(ins, last, key);
      ins + [last]
  }

  /** Appending an element whose key bounds every key of a sorted sequence keeps it sorted. */
  lemma SortedAppend<T>(s: seq<T>, y: T, key: T -> int)
    requires SortedBy(s, key)
    requires forall i :: 0 <= i < |s| ==> key(s[i]) <= key(y)
    ensures SortedBy(s + [y], key)
  {
  }

  /** A bound on the keys of a multiset carries over to a sequence with those elements. */
  lemma BoundedByMultiset<T>(s: seq<T>, m: multiset<T>, key: T -> int, b: int)
    requires multiset(s) == m
    requires forall y :: y in m ==> key(y) <= b
    ensures forall i :: 0 <= i < |s| ==> key(s[i]) <= b
  {
    forall i | 0 <= i < |s|
      ensures key(s[i]) <= b
    {
      assert s[i] in multiset(s);
    }
  }

  /** Insertion sort: sorts all but the last element, then inserts the last. */
  function Sort<T>(s: seq<T>, key: T -> int): (r: seq<T>)
    ensures SortedBy(r, key)
    ensures multiset(r) == multiset(s)
    ensures |r| == |s|
    decreases |s|
  {
    if |s| == 0 then []
    else
      assert s == s[..|s| - 1] + [s[|s| - 1]];
      Insert(Sort(s[..|s| - 1], key), s[|s| - 1], key)
  }

  /** Appending `x` appends it to the elements with its key, and to no other. */
  lemma WithKeySnoc<T>(s: seq<T>, x: T, key: T -> int, k: int)
    ensures WithKey(s + [x], key, k) == WithKey(s, key, k) + (if key(x) == k then [x] else [])
  {
    assert (s + [x])[..|s|] == s;
  }

  /** Insertion places `x` after every element that has its key. */
  lemma {:induction false} InsertStable<T>(s: seq<T>, x: T, key: T -> int, k: int)
    requires SortedBy(s, key)
    ensures WithKey(Insert(s, x, key), key, k)
         == WithKey(s, key, k) + (if key(x) == k then [x] else [])
    decreases |s|
  {
    if |s| == 0 {
      assert Insert(s, x, key) == [x];
      assert [x][..0] == [];
    } else if key(s[|s| - 1]) <= key(x) {
      assert Insert(s, x, key) == s + [x];
      WithKeySnoc(s, x, key, k);
    } else {
      var init := s[..|s| - 1];
      var last := s[|s| - 1];
      var ins := Insert(init, x, key);
      assert Insert(s, x, key) == ins + [last];
      InsertStable(init, x, key, k);
      WithKeySnoc(ins, last, key, k);
    }
  }

  /** The sort is stable: among elements with the same key, the input order is kept. */
  lemma {:induction false} SortStable<T>(s: seq<T>, key: T -> int, k: int)
    ensures WithKey(Sort(s, key), key, k) == WithKey(s, key, k)
    decreases |s|
  {
    if |s| > 0 {
      var init := s[..|s| - 1];
      var last := s[|s| - 1];
      assert Sort(s, key) == Insert(Sort(init, key), last, key);
      InsertStable(Sort(init, key), last, key, k);
      SortStable(init, key, k);
    }
  }

  /** Sorting an already sorted sequence changes nothing. */
  lemma {:induction false} SortOfSorted<T>(s: seq<T>, key: T -> int)
    requires SortedBy(s, key)
    ensures Sort(s, key) == s
    decreases |s|
  {
    if |s| > 0 {
      var init := s[..|s| - 1];
      assert SortedBy(init, key);
      SortOfSorted(init, key);
      assert s == init + [s[|s| - 1]];
    }
  }
}

=== FILE: stats.dfy ===
/** `GET /stats/`: counts over the file and profile tables for the dashboard. */
module Stats {
  import opened Common
  import opened Models
  import Files
  import Activities
  import Admin

  /** The JSON reply: `fileCount`, `trackCount`, `userCount`, `systemStatus`. */
  datatype SystemStats = SystemStats(fileCount: nat, trackCount: nat, userCount: nat, systemStatus: string)

  predicate HasId(f: File) {
    f.id.Some?
  }

  predicate IsCountedTrack(f: File) {
    f.id.Some? && IsAudio(f)
  }

  /** `get_system_stats`. `COUNT(File.id)` counts the rows with an id; tracks are the
      rows whose mime type is `LIKE 'audio/%'`, which leaves out a null mime type;
      applicants are not users. */
  function GetSystemStats(db: Db): (r: SystemStats)
    ensures r.fileCount == |Filter(db.files, HasId)|
    ensures r.trackCount == |Filter(db.files, IsCountedTrack)|
    ensures r.trackCount <= r.fileCount <= |db.files|
    ensures r.userCount == |db.profiles|
    ensures r.systemStatus == "ACTIVE"
  {
    FilterMonotone(db.files, IsCountedTrack, HasId);
    FilterCountMonotone(Filter(db.files, IsCountedTrack), Filter(db.files, HasId), x => true);
    FilterAll(Filter(db.files, IsCountedTrack));
    FilterAll(Filter(db.files, HasId));
    SystemStats(|Filter(db.files, HasId)|, |Filter(db.files, IsCountedTrack)|, |db.profiles|, "ACTIVE")
  }

  lemma {:induction false} FilterAll<T>(s: seq<T>)
    ensures Filter(s, x => true) == s
    decreases |s|
  {
    if |s| > 0 {
      FilterAll(s[1..]);
    }
  }

  /** A filter that every element of `s` satisfies keeps all of it. */
  lemma {:induction false} FilterKeepsAll<T>(s: seq<T>, p: T -> bool)
    requires forall i :: 0 <= i < |s| ==> p(s[i])
    ensures Filter(s, p) == s
    decreases |s|
  {
    if |s| > 0 {
      FilterKeepsAll(s[1..], p);
    }
  }

  /** In a well-formed database every file has an id, so the file count is the number of
      rows and the track count the number of audio rows. */
  lemma StatsOfWellFormed(db: Db)
    requires WellFormed(db)
    ensures GetSystemStats(db).fileCount == |db.files|
    ensures GetSystemStats(db).trackCount == |Filter(db.files, IsAudio)|
  {
    FilterKeepsAll(db.files, HasId);
    TrackFilterSame(db.files);
  }

  lemma {:induction false} TrackFilterSame(s: seq<File>)
    requires forall i :: 0 <= i < |s| ==> s[i].id.Some?
    ensures Filter(s, IsCountedTrack) == Filter(s, IsAudio)
    decreases |s|
  {
    if |s| > 0 {
      TrackFilterSame(s[1..]);
    }
  }

  /** A recorded file adds one to the file count, one to the track count when it is audio,
      and nothing to the user count. */
  lemma StatsAfterCreate(db: Db, caller: Profile, rec: File, commitFails: bool, error: string)
    requires Files.CreateFileRecord(db, caller, rec, commitFails, error).1.Ok?
    ensures var before := GetSystemStats(db);
            var f := Files.CreateFileRecord(db, caller, rec, commitFails, error).1.value;
            var after := GetSystemStats(Files.CreateFileRecord(db, caller, rec, commitFails, error).0);
            && after.fileCount == before.fileCount + 1
            && after.trackCount == before.trackCount + (if IsAudio(f) then 1 else 0)
            && after.userCount == before.userCount
  {
    var r := Files.CreateFileRecord(db, caller, rec, commitFails, error);
    FilterConcat(db.files, [r.1.value], HasId);
    FilterConcat(db.files, [r.1.value], IsCountedTrack);
  }

  /** An approval adds one user and leaves the file counts alone. */
  lemma StatsAfterApprove(db: Db, id: Uuid, now: Timestamp, commitFails: bool, error: string)
    requires Admin.ApproveOperator(db, id, now, commitFails, error).1.Ok?
    ensures GetSystemStats(Admin.ApproveOperator(db, id, now, commitFails, error).0)
            == GetSystemStats(db).(userCount := GetSystemStats(db).userCount + 1)
  {
  }

  /** The audio tracks in the activity feed are among the counted tracks. */
  lemma FeedTracksCounted(db: Db)
    requires WellFormed(db)
    ensures |Filter(Activities.RecentFiles(db.files), IsAudio)| <= GetSystemStats(db).trackCount
  {
    Activities.RecentFilesStored(db.files);
    FilterCountMonotone(Activities.RecentFiles(db.files), db.files, IsAudio);
    StatsOfWellFormed(db);
  }
}

=== FILE: users.dfy ===
/** The caller's own record: `GET /users/me` shapes it into a response per kind of caller,
    and `PATCH /users/me` overwrites exactly the fields the request supplies. The storage
    service's `generate_presigned_url` is not part of this model; it is the parameter
    `presign`. */
module Users {
  import opened Common
  import opened Models

  /** The current user: a formal operator or an applicant. */
  datatype Caller = AsProfile(profile: Profile) | AsTempop(tempop: Tempop)

  /** The body of a `PATCH /users/me`; `None` is a field the client left out. */
  datatype UserUpdate = UserUpdate(
    code: Option<string>,
    department: Option<string>,
    avatarUrl: Option<string>,
    gender: Option<string>,
    age: Option<int>,
    address: Option<string>,
    bio: Option<string>)

  /** The JSON object `GET /users/me` returns. `kind` is the `type` key, and `department`
      is `None` when the key is absent (an applicant) and `Some(None)` when it is `null`. */
  datatype UserView = UserView(
    id: Uuid,
    kind: string,
    code: Option<string>,
    email: Option<string>,
    avatarUrl: Option<string>,
    gender: Option<string>,
    age: Option<int>,
    address: Option<string>,
    bio: Option<string>,
    role: string,
    status: string,
    department: Option<Option<string>>)

  /** The reply of a successful `PATCH /users/me`. */
  datatype UpdateReply = UpdateReply(message: string, user: Caller)

  // ---------------------------------------------------------------- avatars

  /** `_process_avatar_url`: no avatar for a missing or empty value, a full `http://` or
      `https://` URL as it is, and a presigned URL for a storage key. */
  function ProcessAvatarUrl(avatar: Option<string>, presign: string -> Option<string>): (r: Option<string>)
    ensures avatar.None? || avatar == Some("") ==> r.None?
    ensures avatar.Some? && (StartsWith(avatar.value, "http://") || StartsWith(avatar.value, "https://"))
            ==> r == avatar
    ensures (avatar.Some? && avatar.value != "" && !StartsWith(avatar.value, "http://")
             && !StartsWith(avatar.value, "https://")) ==> r == presign(avatar.value)
  {
    match avatar
    case None => None
    case Some(v) =>
      if v == "" then None
      else if StartsWith(v, "http://") || StartsWith(v, "https://") then Some(v)
      else presign(v)
  }

  /** The avatar rule of `read_users_me`, which only asks for the prefix `http`. */
  function MeAvatarUrl(avatar: Option<string>, presign: string -> Option<string>): (r: Option<string>)
    ensures avatar.None? || avatar == Some("") ==> r.None?
    ensures avatar.Some? && StartsWith(avatar.value, "http") ==> r == avatar
    ensures avatar.Some? && avatar.value != "" && !StartsWith(avatar.value, "http") ==> r == presign(avatar.value)
  {
    match avatar
    case None => None
    case Some(v) =>
      if v == "" then None
      else if StartsWith(v, "http") then Some(v)
      else presign(v)
  }

  /** Both full-URL prefixes start with `http`. */
  lemma SchemeStartsWithHttp(v: string)
    requires StartsWith(v, "http://") || StartsWith(v, "https://")
    ensures StartsWith(v, "http")
  {
    if StartsWith(v, "http://") {
      assert v[..4] == v[..7][..4];
    } else {
      assert v[..4] == v[..8][..4];
    }
  }

  /** The two avatar rules agree except on values that start with `http` without being a
      full `http://` or `https://` URL: those `read_users_me` returns as they are, where
      the helper presigns them. */
  lemma AvatarRulesDiffer(avatar: Option<string>, presign: string -> Option<string>)
    ensures avatar.Some? && StartsWith(avatar.value, "http")
            && !StartsWith(avatar.value, "http://") && !StartsWith(avatar.value, "https://") ==>
              MeAvatarUrl(avatar, presign) == avatar && ProcessAvatarUrl(avatar, presign) == presign(avatar.value)
    ensures !(avatar.Some? && StartsWith(avatar.value, "http")
              && !StartsWith(avatar.value, "http://") && !StartsWith(avatar.value, "https://")) ==>
              MeAvatarUrl(avatar, presign) == ProcessAvatarUrl(avatar, presign)
  {
    if avatar.Some? && (StartsWith(avatar.value, "http://") || StartsWith(avatar.value, "https://")) {
      SchemeStartsWithHttp(avatar.value);
    }
  }

  /** A storage key named `httpdocs/a.png` is presigned by one rule and not by the other. */
  lemma AvatarRulesDifferExample(presign: string -> Option<string>)
    ensures MeAvatarUrl(Some("httpdocs/a.png"), presign) == Some("httpdocs/a.png")
    ensures ProcessAvatarUrl(Some("httpdocs/a.png"), presign) == presign("httpdocs/a.png")
  {
    var v := "httpdocs/a.png";
    assert v[..4] == "http";
    assert v[..7] != "http://" by { assert v[4] == 'd'; }
    assert v[..8] != "https://" by { assert v[4] == 'd'; }
    AvatarRulesDiffer(Some(v), presign);
  }

  // ---------------------------------------------------------------- reading

  function CallerId(c: Caller): Uuid {
    match c
    case AsProfile(p) => p.id
    case AsTempop(t) => t.id
  }

  function CallerCode(c: Caller): Option<string> {
    match c
    case AsProfile(p) => p.code
    case AsTempop(t) => Some(t.code)
  }

  function CallerAvatar(c: Caller): Option<string> {
    match c
    case AsProfile(p) => p.avatarUrl
    case AsTempop(t) => t.avatarUrl
  }

  /** `GET /users/me`. The common keys come from the record (the avatar through
      `MeAvatarUrl`). A profile adds type `profile`, its role and department, and status
      `active`; an applicant adds type `tempop`, its own status and role `guest`, and has
      no department key. */
  function ReadUsersMe(c: Caller, presign: string -> Option<string>): (v: UserView)
    ensures v.id == CallerId(c) && v.code == CallerCode(c)
    ensures v.avatarUrl == MeAvatarUrl(CallerAvatar(c), presign)
    ensures c.AsProfile? ==>
              (v.kind == "profile" && v.role == c.profile.role && v.status == "active"
               && v.department == Some(c.profile.department) && v.email == c.profile.email
               && v.gender == c.profile.gender && v.age == c.profile.age
               && v.address == c.profile.address && v.bio == c.profile.bio)
    ensures c.AsTempop? ==>
              (v.kind == "tempop" && v.role == "guest" && v.status == c.tempop.status
               && v.department.None? && v.email == c.tempop.email
               && v.gender == c.tempop.gender && v.age == c.tempop.age
               && v.address == c.tempop.address && v.bio == c.tempop.bio)
  {
    var avatar := MeAvatarUrl(CallerAvatar(c), presign);
    match c
    case AsProfile(p) =>
      UserView(p.id, "profile", p.code, p.email, avatar, p.gender, p.age, p.address, p.bio,
               p.role, "active", Some(p.department))
    case AsTempop(t) =>
      UserView(t.id, "tempop", Some(t.code), t.email, avatar, t.gender, t.age, t.address, t.bio,
               "guest", t.status, None)
  }

  // ---------------------------------------------------------------- updating

  function CallerGender(c: Caller): Option<string> {
    match c
    case AsProfile(p) => p.gender
    case AsTempop(t) => t.gender
  }

  function CallerAge(c: Caller): Option<int> {
    match c
    case AsProfile(p) => p.age
    case AsTempop(t) => t.age
  }

  function CallerAddress(c: Caller): Option<string> {
    match c
    case AsProfile(p) => p.address
    case AsTempop(t) => t.address
  }

  function CallerBio(c: Caller): Option<string> {
    match c
    case AsProfile(p) => p.bio
    case AsTempop(t) => t.bio
  }

  /** The record with every field a request can change blanked out: what an update must
      leave alone (the id, the email, the role, the applicant status, the timestamps). */
  function Fixed(c: Caller): Caller {
    match c
    case AsProfile(p) =>
      AsProfile(p.(code := None, avatarUrl := None, gender := None, age := None, address := None,
                   bio := None, department := None))
    case AsTempop(t) =>
      AsTempop(t.(code := "", avatarUrl := None, gender := None, age := None, address := None, bio := None))
  }

  /** The field assignments of `update_user_me`: each of code, avatar, gender, age,
      address and bio takes the request's value when one is supplied and keeps its value
      otherwise; the department does the same on a profile only; nothing else changes. */
  function ApplyUpdate(c: Caller, u: UserUpdate): (r: Caller)
    ensures r.AsProfile? <==> c.AsProfile?
    ensures Fixed(r) == Fixed(c)
    ensures CallerCode(r) == (if u.code.Some? then u.code else CallerCode(c))
    ensures CallerAvatar(r) == (if u.avatarUrl.Some? then u.avatarUrl else CallerAvatar(c))
    ensures CallerGender(r) == (if u.gender.Some? then u.gender else CallerGender(c))
    ensures CallerAge(r) == (if u.age.Some? then u.age else CallerAge(c))
    ensures CallerAddress(r) == (if u.address.Some? then u.address else CallerAddress(c))
    ensures CallerBio(r) == (if u.bio.Some? then u.bio else CallerBio(c))
    ensures c.AsProfile? ==>
              r.profile.department == (if u.department.Some? then u.department else c.profile.department)
  {
    match c
    case AsProfile(p) =>
      AsProfile(p.(
        code := if u.code.Some? then u.code else p.code,
        avatarUrl := if u.avatarUrl.Some? then u.avatarUrl else p.avatarUrl,
        gender := if u.gender.Some? then u.gender else p.gender,
        age := if u.age.Some? then u.age else p.age,
        address := if u.address.Some? then u.address else p.address,
        bio := if u.bio.Some? then u.bio else p.bio,
        department := if u.department.Some? then u.department else p.department))
    case AsTempop(t) =>
      AsTempop(t.(
        code := if u.code.Some? then u.code.value else t.code,
        avatarUrl := if u.avatarUrl.Some? then u.avatarUrl else t.avatarUrl,
        gender := if u.gender.Some? then u.gender else t.gender,
        age := if u.age.Some? then u.age else t.age,
        address := if u.address.Some? then u.address else t.address,
        bio := if u.bio.Some? then u.bio else t.bio))
  }

  /** An applicant's update ignores the department entirely. */
  lemma DepartmentIgnoredForApplicant(t: Tempop, u: UserUpdate)
    ensures ApplyUpdate(AsTempop(t), u) == ApplyUpdate(AsTempop(t), u.(department := None))
  {
  }

  /** The later of two updates wins on every field it supplies. */
  function Then(u1: UserUpdate, u2: UserUpdate): UserUpdate {
    UserUpdate(
      if u2.code.Some? then u2.code else u1.code,
      if u2.department.Some? then u2.department else u1.department,
      if u2.avatarUrl.Some? then u2.avatarUrl else u1.avatarUrl,
      if u2.gender.Some? then u2.gender else u1.gender,
      if u2.age.Some? then u2.age else u1.age,
      if u2.address.Some? then u2.address else u1.address,
      if u2.bio.Some? then u2.bio else u1.bio)
  }

  const NoChange: UserUpdate := UserUpdate(None, None, None, None, None, None, None)

  /** Two updates in a row are one update with the later values winning; in particular an
      update applied twice is the same as applied once, and an empty update changes
      nothing. */
  lemma ApplyUpdateCompose(c: Caller, u1: UserUpdate, u2: UserUpdate)
    ensures ApplyUpdate(ApplyUpdate(c, u1), u2) == ApplyUpdate(c, Then(u1, u2))
  {
  }

  lemma ApplyUpdateIdempotent(c: Caller, u: UserUpdate)
    ensures ApplyUpdate(ApplyUpdate(c, u), u) == ApplyUpdate(c, u)
  {
    ApplyUpdateCompose(c, u, u);
    assert Then(u, u) == u;
  }

  lemma ApplyNoChange(c: Caller)
    ensures ApplyUpdate(c, NoChange) == c
  {
  }

  /** What `GET /users/me` shows after an update: the supplied code and the other supplied
      fields, the old values elsewhere; an applicant's department stays absent. */
  lemma ReadAfterUpdate(c: Caller, u: UserUpdate, presign: string -> Option<string>)
    ensures ReadUsersMe(ApplyUpdate(c, u), presign).code == (if u.code.Some? then u.code else CallerCode(c))
    ensures ReadUsersMe(ApplyUpdate(c, u), presign).bio == (if u.bio.Some? then u.bio else ReadUsersMe(c, presign).bio)
    ensures c.AsProfile? && u.department.Some? ==>
              ReadUsersMe(ApplyUpdate(c, u), presign).department == Some(u.department)
    ensures c.AsTempop? ==> ReadUsersMe(ApplyUpdate(c, u), presign).department.None?
    ensures ReadUsersMe(ApplyUpdate(c, u), presign).status == ReadUsersMe(c, presign).status
    ensures ReadUsersMe(ApplyUpdate(c, u), presign).role == ReadUsersMe(c, presign).role
  {
  }

  /** `_update_user_fields`, the older helper: only the code, the department (on a
      profile) and the avatar. */
  function UpdateUserFields(c: Caller, u: UserUpdate): (r: Caller)
    ensures r == ApplyUpdate(c, u.(gender := None, age := None, address := None, bio := None))
  {
    match c
    case AsProfile(p) =>
      AsProfile(p.(
        code := if u.code.Some? then u.code else p.code,
        department := if u.department.Some? then u.department else p.department,
        avatarUrl := if u.avatarUrl.Some? then u.avatarUrl else p.avatarUrl))
    case AsTempop(t) =>
      AsTempop(t.(
        code := if u.code.Some? then u.code.value else t.code,
        avatarUrl := if u.avatarUrl.Some? then u.avatarUrl else t.avatarUrl))
  }

  /** The helper and the endpoint agree on updates that touch only the fields the helper
      knows. */
  lemma UpdateUserFieldsAgrees(c: Caller, u: UserUpdate)
    requires u.gender.None? && u.age.None? && u.address.None? && u.bio.None?
    ensures UpdateUserFields(c, u) == ApplyUpdate(c, u)
  {
    assert u.(gender := None, age := None, address := None, bio := None) == u;
  }

  /** Stores the caller's record in its table: afterwards the record is there and has
      replaced the row with its id, every row with another id is still there, nothing else
      was added, and the other tables are untouched. */
  function Store(db: Db, c: Caller): (r: Db)
    ensures c.AsProfile? ==> c.profile in r.profiles && r.tempops == db.tempops
    ensures c.AsProfile? ==> forall p :: p in db.profiles && p.id != c.profile.id ==> p in r.profiles
    ensures c.AsProfile? ==>
      forall p :: p in r.profiles ==> p == c.profile || (p in db.profiles && p.id != c.profile.id)
    ensures c.AsProfile? ==>
      |r.profiles| == |db.profiles| + (if c.profile.id in ProfileIds(db) then 0 else 1)
    ensures c.AsTempop? ==> c.tempop in r.tempops && r.profiles == db.profiles
    ensures c.AsTempop? ==> forall t :: t in db.tempops && t.id != c.tempop.id ==> t in r.tempops
    ensures c.AsTempop? ==>
      forall t :: t in r.tempops ==> t == c.tempop || (t in db.tempops && t.id != c.tempop.id)
    ensures c.AsTempop? ==>
      |r.tempops| == |db.tempops| + (if c.tempop.id in TempopIds(db) then 0 else 1)
    ensures r.assets == db.assets && r.files == db.files
    ensures r.auditLogs == db.auditLogs && r.blueprints == db.blueprints
  {
    match c
    case AsProfile(p) =>
      var ps := Put(db.profiles, ProfileId, p);
      assert forall q :: q in db.profiles && q.id != p.id ==> q in ps by {
        forall q | q in db.profiles && q.id != p.id
          ensures q in ps
        {
          var i :| 0 <= i < |db.profiles| && db.profiles[i] == q;
          assert ps[i] == q;
        }
      }
      assert forall q :: q in ps ==> q == p || (q in db.profiles && q.id != p.id) by {
        forall q | q in ps
          ensures q == p || (q in db.profiles && q.id != p.id)
        {
          var i :| 0 <= i < |ps| && ps[i] == q;
          if i < |db.profiles| {
            assert ps[i] == (if db.profiles[i].id == p.id then p else db.profiles[i]);
          }
        }
      }
      db.(profiles := ps)
    case AsTempop(t) =>
      var ts := Put(db.tempops, TempopId, t);
      assert forall q :: q in db.tempops && q.id != t.id ==> q in ts by {
        forall q | q in db.tempops && q.id != t.id
          ensures q in ts
        {
          var i :| 0 <= i < |db.tempops| && db.tempops[i] == q;
          assert ts[i] == q;
        }
      }
      assert forall q :: q in ts ==> q == t || (q in db.tempops && q.id != t.id) by {
        forall q | q in ts
          ensures q == t || (q in db.tempops && q.id != t.id)
        {
          var i :| 0 <= i < |ts| && ts[i] == q;
          if i < |db.tempops| {
            assert ts[i] == (if db.tempops[i].id == t.id then t else db.tempops[i]);
          }
        }
      }
      db.(tempops := ts)
  }

  /** `PATCH /users/me`: the updated record is committed and returned, or, when the
      commit fails with message `error`, nothing is stored and the reply is a 500. */
  function UpdateUserMe(db: Db, c: Caller, u: UserUpdate, commitFails: bool, error: string)
    : (r: (Db, Response<UpdateReply>))
    ensures commitFails ==> r == (db, Err(HttpError(500, error)))
    ensures !commitFails ==> r.1 == Ok(UpdateReply("Profile updated", ApplyUpdate(c, u)))
    ensures !commitFails ==> r.0 == Store(db, ApplyUpdate(c, u))
  {
    if commitFails then (db, Err(HttpError(500, error)))
    else
      var c' := ApplyUpdate(c, u);
      (Store(db, c'), Ok(UpdateReply("Profile updated", c')))
  }

  /** An update keeps the database well formed, keeps the set of profile ids, and
      repeating it leaves the same database. */
  lemma UpdateUserMeWellFormed(db: Db, c: Caller, u: UserUpdate, commitFails: bool, error: string)
    requires WellFormed(db)
    requires c.AsProfile? ==> c.profile.id in ProfileIds(db)
    ensures WellFormed(UpdateUserMe(db, c, u, commitFails, error).0)
    ensures ProfileIds(UpdateUserMe(db, c, u, commitFails, error).0) == ProfileIds(db)
    ensures !commitFails ==>
      var db' := UpdateUserMe(db, c, u, false, error).0;
      UpdateUserMe(db', ApplyUpdate(c, u), u, false, error) == UpdateUserMe(db, c, u, false, error)
  {
    if !commitFails {
      ApplyUpdateIdempotent(c, u);
      var c' := ApplyUpdate(c, u);
      var db' := Store(db, c');
      match c'
      case AsProfile(p) =>
        PutUnique(db.profiles, ProfileId, p);
        PutTwice(db.profiles, ProfileId, p);
      case AsTempop(t) =>
        PutUnique(db.tempops, TempopId, t);
        PutTwice(db.tempops, TempopId, t);
    }
  }
}
